=== FILE: README.md ===
# Chat webapp core, modelled in Dafny

This project models the server-side logic of a real-time chat web application.
Users hold memberships in private or group conversations. They exchange
messages and send each other friend requests. A read pointer on each membership
drives the unseen-message count of the conversation list. A background bridge
turns database change events into socket emits, either to a conversation's room
or to everyone.

The store is an immutable `Db` value, in `store.dfy`. Each table is a sequence
in insertion order, because the application's `findFirst` and `filter(...)[0]`
pick the first matching row. Every operation is a pure function from a store
(and its inputs) to a result. Operations that write also return the store
afterwards.

Some inputs come from outside the application. Each is a parameter of the
model:

- the authenticated user id (`authUserId`);
- the ids and timestamps the store assigns (`newId`, `now`, `conversationId`, `memberIds`), with freshness as a precondition;
- the e-mail format check (`isEmail`);
- the verified webhook event (`verified`).

Modules follow the program's files:

| file | module | models |
|---|---|---|
| `wrappers.dfy` | `Wrappers` | `Option` / `Result` |
| `seqs.dfy` | `Seqs` | the row filters, `findFirst`, `Promise.all` (`AllOf`) and `orderBy: desc` (`SortDesc`) over sequences |
| `store.dfy` | `Store` | the tables, their key constraints (`WellFormed`), unique-key lookups, the error reasons |
| `users.dfy` | `Users` | `client/src/data/users.ts` |
| `webhook.dfy` | `ClerkWebhook` | `client/src/app/api/webhooks/clerk/route.ts` |
| `schemas.dfy` | `Schemas` | `client/src/schemas/zod-schemas.ts` |
| `memberships.dfy` | `Memberships` | the membership helpers of `client/src/data/conversation.ts` |
| `messages.dfy` | `Messages` | `client/src/data/messages.ts` |
| `conversations.dfy` | `Conversations` | the rest of `client/src/data/conversation.ts` |
| `flows.dfy` | `Flows` | properties linking `createMessage` to `getMessages` and to the unseen counts |
| `requests.dfy` | `Requests` | `client/src/data/requests.ts` |
| `notifications.dfy` | `Notifications` | `server/src/controllers/notificationController.ts` |
| `friends.dfy` | `Friends` | `client/src/data/friends.ts` |
| `rooms.dfy` | `Rooms` | `server/src/sockets/messageHandler.ts` and socket delivery |
| `bridge.dfy` | `Bridge` | `server/src/service/streamServiceMessages.ts`, `streamServiceConversation.ts`, `StreamServiceNotifications.ts` |
| `navigation.dfy` | `Navigation` | `client/src/hooks/useNavigation.tsx`, `client/src/hooks/useConversation.tsx` |

How the application handles errors decides how each error is modelled:

- **Swallowed errors.** An error that the application catches and logs becomes `None`, and the store is unchanged.
- **Thrown errors.** An error the application throws becomes `Err(reason)`.
- **Non-atomic writes.** `createMessage` writes the message before it updates the conversation. So a missing conversation row yields `Err(RecordNotFound)`, and the message is still persisted.

Some behaviours follow the code rather than what a reader might expect:

- **Empty ids are falsy.** The empty string is the JavaScript falsy id. `getUniqueConversationMember` with an empty conversation id falls back to any membership of the caller. The membership guarantees of `CreateMessage`, `GetMessages` and `GetConversationById` are therefore stated for a non-empty conversation id.
- **Membership is checked per message in `getMessages`.** A non-member reading an empty conversation gets an empty list, not an error.
- **The webhook reads `email_addresses[0]` without checking it.** An empty array passes the `!email_addresses` guard. The read then throws; the model's `Raised` stands for that exception.

## Model

| member | source | states |
|---|---|---|
| Users.GetLoggedInUser | client/src/data/users.ts:9-31 | nothing when there is no authenticated id, the id is empty, or no user has it; otherwise a stored user with that id |
| Users.GetUserById | client/src/data/users.ts:34-53 | nothing, not an error, for an empty or unknown id; otherwise the stored user with that id |
| Users.GetUserByEmail | client/src/data/users.ts:55-74 | nothing for an empty email; otherwise the first user in table order with that email, or nothing if none has it |
| Users.CreateUser | client/src/data/users.ts:76-91 | a row clashing on id or email is swallowed: nothing returned, table unchanged; otherwise the row is appended; key uniqueness is preserved |
| Users.UpdateUser | client/src/data/users.ts:93-111 | empty id, unknown id or an email taken by another user: nothing changes; otherwise only the supplied fields of that one row change, at its position; key uniqueness is preserved |
| Users.DeleteUser | client/src/data/users.ts:113-129 | empty id: nothing changes; otherwise no row with that id remains, every other row remains, other tables are untouched |
| Users.DeleteUserRemovesOne | client/src/data/users.ts:115-119 | with unique ids, deleting a present id removes exactly one row |
| ClerkWebhook.OnCreated | client/src/app/api/webhooks/clerk/route.ts:66-95 | missing data or an already known id: 400 and no change; an empty address list: an exception and no change; otherwise 200 and a row with the event's id, first email, image and username (a duplicate email is swallowed) |
| ClerkWebhook.OnUpdated | client/src/app/api/webhooks/clerk/route.ts:97-120 | missing data or an unknown id: 400 and no change; an empty address list: an exception and no change; an email another user holds: 200 and no change (the failed update is swallowed); otherwise 200, and that user's row, at its position, takes the first email, image and username, every other row and table unchanged |
| ClerkWebhook.OnDeleted | client/src/app/api/webhooks/clerk/route.ts:122-140 | missing or unknown id: 400 and no change; otherwise 200 and that user is gone, every other user stays, no user is added and no other table changes |
| ClerkWebhook.Post | client/src/app/api/webhooks/clerk/route.ts:16-150 | no secret: exception; a missing svix header or a failed verification: 400 and no change; a verified `user.created`, `user.updated` or `user.deleted` event gets exactly its handler's outcome; any other event type: 200 and no change; only the user table is ever written, only on 200; key uniqueness is preserved |
| Schemas.ParseAddFriendForm | client/src/schemas/zod-schemas.ts:4-9 | accepted iff the email is non-empty and well formed; each failed check contributes its own message |
| Schemas.ParseChatMessage | client/src/schemas/zod-schemas.ts:11-13 | accepted iff the content has at least one character |
| Schemas.ParseCreateGroupForm | client/src/schemas/zod-schemas.ts:15-21 | accepted iff the name is non-empty and at least one member is selected; each failed check contributes its own message |
| Memberships.GetConversationMembers | client/src/data/conversation.ts:332-364 | nothing for an empty id; otherwise exactly the membership rows with that member id (or conversation id), taken from the table |
| Memberships.GetUniqueConversationMember | client/src/data/conversation.ts:367-399 | nothing for an empty member id; with a non-empty conversation id, found iff the user is a member of it; with an empty one, found iff the user has any membership |
| Memberships.AddConversationMember | client/src/data/conversation.ts:310-329 | afterwards the user is a member; every earlier membership is kept, and exactly one row is appended: the assigned id, that user, that conversation, no read pointer; key uniqueness is preserved |
| Messages.CreateMessage | client/src/data/messages.ts:9-44 | not logged in or not a member: refused with nothing written; a member's message is accepted iff the conversation row exists; on success the message has the caller as sender and the given conversation, type and content, is appended, and that conversation (no other) points at it; a missing conversation row is the only error after a write, and then the message stays appended and nothing else changes |
| Messages.PointLastMessage | client/src/data/messages.ts:38-41 | the conversation with that id points at the message; every other conversation is unchanged |
| Messages.GetMessages | client/src/data/messages.ts:47-88 | succeeds iff the conversation is empty, or the caller is a member and every sender exists; then exactly the conversation's messages, each once, newest first, `isCurrentUser` iff the caller sent it, each with its sender's stored image and username |
| Messages.ViewOf | client/src/data/messages.ts:59-84 | a message's entry exists iff its sender exists and the caller is a member; it carries the message unchanged, with its sender's stored image and username |
| Messages.ViewAll | client/src/data/messages.ts:54-74 | succeeds iff every message's entry can be built; then one entry per message, in the given order, each with its sender's stored image and username and `isCurrentUser` iff the caller sent it |
| Messages.ViewAllSucceeds | client/src/data/messages.ts:54-74 | over any reordering of the conversation's messages, the per-message checks all pass iff the conversation is empty or the caller is a member and all senders exist |
| Messages.MessageContent | client/src/data/messages.ts:113-120 | text content is returned unchanged; every other type shows `[Non-text]` |
| Messages.GetLastMessageById | client/src/data/messages.ts:91-111 | nothing, without error, for an absent or empty id; an error if the message or its sender is missing; otherwise the displayed content and the sender's username |
| Conversations.LastSeenTime | client/src/data/conversation.ts:85-96 | the creation time of the message the read pointer names in this conversation, or -1 when it is unset or names no message there |
| Conversations.UnseenCount | client/src/data/conversation.ts:94-104 | at most the number of messages; 0 for an empty conversation; with no valid pointer, the number of messages from others |
| Conversations.OwnMessagesNeverUnseen | client/src/data/conversation.ts:97-104 | the caller's own messages never count: when every message of the conversation is the caller's, the count is 0 |
| Conversations.UnseenCountCharacterised | client/src/data/conversation.ts:97-104 | the count equals the number of positions holding a message created strictly after the last-seen message and not sent by the caller |
| Conversations.CountMatchesPositions | client/src/data/conversation.ts:102-104 | counting the two-stage filter equals counting the positions it keeps |
| Conversations.OtherMembership | client/src/data/conversation.ts:115-118 | the first membership, in table order, of someone other than the caller; none iff all belong to the caller |
| Conversations.Summarise | client/src/data/conversation.ts:69-133 | an entry exists iff the conversation id is non-empty, its last message (if any) and that message's sender are found, and a private conversation has a member other than the caller whose user exists; it carries its conversation, the last-message summary and the unseen count, and a partner iff private: the user of the first membership that is not the caller's |
| Conversations.LoadConversations | client/src/data/conversation.ts:54-65 | succeeds iff every membership names a stored conversation; then the rows in membership order |
| Conversations.SummariseAll | client/src/data/conversation.ts:69-134 | succeeds iff every entry can be built; then one entry per membership, in order, each showing that membership's conversation as `Summarise` does |
| Conversations.ListConversations | client/src/data/conversation.ts:54-134 | both `Promise.all` steps: success iff every membership's conversation is stored and its entry can be built; then each entry shows the conversation its membership names |
| Conversations.GetConversations | client/src/data/conversation.ts:39-137 | not logged in: refused; a logged-in caller gets the list iff each of the caller's memberships names a stored conversation whose entry can be built; then one entry per membership, in order, with that stored conversation, its last-message summary, the unseen count, and a partner iff private (the first other member) |
| Conversations.GroupMembers | client/src/data/conversation.ts:188-203 | succeeds iff every listed member exists; then one entry per membership, in order, with its member id, that user's stored username and the membership's read pointer |
| Conversations.GetConversationById | client/src/data/conversation.ts:139-207 | refused when not logged in, when the conversation is missing, or when the caller is not a member; a member gets it iff the users shown with it exist; private: the first other member with its read pointer; group: every other membership, in order, with that user's username and read pointer |
| Conversations.ShowConversation | client/src/data/conversation.ts:167-207 | succeeds iff the private partner, or every other group member, is a stored user; then the conversation itself with the first other member and its read pointer (private) or every other membership in order (group) |
| Conversations.AddMembers | client/src/data/conversation.ts:233-240 | one membership per listed user, appended in list order, each a member afterwards; key uniqueness is preserved |
| Conversations.OpenGroup | client/src/data/conversation.ts:225-240 | one new group conversation named by the form; one new membership per user (the caller and each selected member), all in that conversation and without a read pointer; earlier rows and other tables unchanged |
| Conversations.OpenGroupMembers | client/src/data/conversation.ts:233-240 | afterwards the caller and every selected member are members, and every new row belongs to one of them |
| Conversations.OpenGroupKeepsWellFormed | client/src/data/conversation.ts:225-240 | opening a group with fresh ids keeps every primary key unique |
| Conversations.CreateGroup | client/src/data/conversation.ts:210-241 | not logged in or an invalid form: refused before any write; otherwise a new group named by the form in which the caller and every selected member are members; the new memberships are all in that group without a read pointer, and earlier memberships and every other table are unchanged |
| Conversations.DeleteGroup | client/src/data/conversation.ts:243-281 | refused only when not logged in or the conversation is missing; then no message, membership or conversation row of it remains and every row of every other conversation stays |
| Conversations.DeleteGroupRevokesAccess | client/src/data/conversation.ts:243-306 | after deletion nobody is a member; reading or leaving the conversation is refused; its history reads as empty |
| Conversations.LeaveGroup | client/src/data/conversation.ts:283-306 | refused when not logged in, the conversation is missing, or the caller is not a member; a member of an existing conversation always succeeds; then only memberships change: one row of the caller's is gone, every row with another id stays |
| Conversations.RemoveMembership | client/src/data/conversation.ts:302-305 | every row with the removed row's id is gone, every other row stays, nothing is added, other tables are untouched; key uniqueness is preserved |
| Conversations.LeaveGroupRemovesOneRow | client/src/data/conversation.ts:295-305 | with unique row ids, exactly one membership row of the caller is removed and the rest keep their order |
| Flows.SendAppendsToHistory | client/src/data/messages.ts:28-35 | a sent message is appended to its conversation's history |
| Flows.SentMessageIsRead | client/src/data/messages.ts:9-88 | after a send, a caller whose read succeeded before the send reads successfully again; the read holds the earlier entries plus the new message once, marked as the caller's own |
| Flows.SentMessageIsLast | client/src/data/messages.ts:28-111 | after a send, the conversation is still found and its last-message summary is the new message's displayed content under the sender's username |
| Flows.OwnMessageLeavesUnseenCount | client/src/data/conversation.ts:94-104 | the sender's own message never changes an unseen count computed for the sender |
| Flows.OtherMessageRaisesUnseenCount | client/src/data/conversation.ts:94-104 | a message from someone else, newer than a reader's last-seen message, raises that reader's count by exactly one |
| Requests.RequestValidator | client/src/data/requests.ts:9-53 | checks login, form, not-to-self, receiver exists, not already sent, not already received, in that order; the first failure decides the error; accepted iff all pass |
| Requests.AcceptedRequestIsToAnother | client/src/data/requests.ts:26-32 | with unique ids, an accepted request never targets the caller |
| Notifications.GetRequests | server/src/controllers/notificationController.ts:5-33 | succeeds iff every received request's sender exists; then exactly the requests received by the id, each once, newest first, each with its own sender |
| Notifications.GetRequestsCount | server/src/controllers/notificationController.ts:36-45 | exactly the number of positions in the request table whose receiver is the id; so at most the table size, and 0 iff nobody sent the id a request |
| Notifications.CountMatchesList | server/src/controllers/notificationController.ts:9-44 | the count equals the length of the `getRequests` list |
| Friends.FindFriends | client/src/data/friends.ts:6-41 | nothing for an empty id; otherwise exactly the friendship rows with the id on the chosen side, from the table |
| Friends.FriendshipSeenFromBothSides | client/src/data/friends.ts:16-30 | every friendship row is found from the accepting user and from the accepted one |
| Rooms.JoinRoom | server/src/sockets/messageHandler.ts:5-8 | the socket is in the room afterwards; no other room and no other socket's membership changes; any room id is accepted |
| Rooms.JoinRoomIdempotent | server/src/sockets/messageHandler.ts:6 | joining twice leaves the same registry as joining once |
| Rooms.InRoomIffJoined | server/src/sockets/messageHandler.ts:5-6 | after a sequence of joins, a socket is in a room iff it sent a join for it |
| Rooms.Recipients | server/src/service/streamServiceMessages.ts:15 | a room emit reaches exactly the connected sockets in the room; a global emit reaches every connected socket |
| Bridge.Translate | server/src/service/streamServiceConversation.ts:14-90 | one emit per event, carrying the created row, the after-image, or the deleted row unmodified, under the feed's event name; room-addressed (to the message's conversation) iff it is the message feed |
| Bridge.RunFeed | server/src/service/streamServiceMessages.ts:12-19 | one emit per event in stream order, up to the first stream error and none after it |
| Bridge.NothingAfterError | server/src/service/StreamServiceNotifications.ts:12-19 | whatever follows a stream error is never emitted |
| Bridge.MessageReachesJoinedSockets | server/src/service/streamServiceMessages.ts:14-15 | a created message reaches exactly the connected sockets that joined its conversation's room; every other emit reaches all connected sockets |
| Navigation.Paths | client/src/hooks/useNavigation.tsx:12-31 | two tabs, Conversations then Friends; Conversations active iff the path starts with `/conversations`, Friends iff it is `/friends`; an active tab's link prefixes the path; never both active |
| Navigation.ConversationIdOf | client/src/hooks/useConversation.tsx:10-12 | an array yields its first element, a string itself; a missing parameter or an empty array yields nothing |
| Navigation.IsActive | client/src/hooks/useConversation.tsx:15 | active iff the conversation id is a non-empty string; never for a missing parameter or an empty array |

## Left out

- Prisma, Pulse and the async plumbing. Each operation is one atomic step. A stream is a finite sequence of items. `Promise.all` runs in list order and reports the first failing element's error. The interleaving of concurrent awaits and concurrent feeds is not modelled.
- Foreign checks are inputs: the Svix signature check, Clerk's `auth()`, and zod's e-mail regex (`isEmail`).
- `createConversation`'s swallowed failure ("Failed to create a group conversation!"). Given a fresh id, the model's insert cannot fail.
- Referential integrity. The database schema is not part of this model, so no foreign key is enforced. Deleting a group leaves no dangling membership or message, by construction. A missing conversation row makes `createMessage`'s second write fail.
- Bridge.Translate: a feed is only given events of the kind and table it subscribed to (`Subscribed`). What a mis-typed event would do is not modelled.
- The server starts only six of the eight feeds. The deleted-conversation and deleted-member feeds are defined but never started. Nothing in the model runs the server loop.
- Socket.io's implicit per-socket room, connection and disconnection are not modelled. `connected` is an input. `server/src/sockets/socketHandlers.ts` does not register `messageHandler`, and its own `joinRoom` listener is commented out (socketHandlers.ts:27-30), so the join of `messageHandler` is modelled on its own.
- Messages.CreateMessage, Messages.GetMessages, Conversations.GetConversationById: their membership guarantees assume a non-empty conversation id. With an empty id, the membership helper matches any membership of the caller.
- Conversations.LeaveGroup: with an empty conversation id, the removed row may belong to any conversation of the caller, so the contract does not tie it to the conversation.
- Flows.OwnMessageLeavesUnseenCount, Flows.OtherMessageRaisesUnseenCount: they assume the reader's pointer does not already name the new message's id. The store never reuses ids.
- Logging, HTTP status plumbing of the Express controllers, and UI components.
- Legacy, unwired socket and stream code, the messages HTTP route, and the all-rows message controller.

=== FILE: bridge.dfy ===
/** The change-event bridge of server/src/service/streamServiceMessages.ts,
    server/src/service/streamServiceConversation.ts and
    server/src/service/StreamServiceNotifications.ts: each feed subscribes to
    one kind of change on one table and turns every change event into one
    socket emit, until its stream fails. */
module Bridge {
  import opened Store
  import opened Rooms

  /** A persisted row, as carried by a change event. */
  datatype Record =
    | MessageRow(message: Message)
    | RequestRow(request: Request)
    | ConversationRow(conversation: Conversation)
    | MemberRow(member: Membership)

  /** A change event: the created row, the row before and after an update, or
      the deleted row. */
  datatype Change = Created(created: Record) | Updated(before: Record, after: Record) | Deleted(deleted: Record)

  /** What the stream yields: an event, or a failure that ends the loop. */
  datatype StreamItem = Event(change: Change) | StreamError

  datatype Feed =
    | NewChatMessages
    | NewRequests
    | DeletedRequests
    | NewConversations
    | UpdatedConversations
    | DeletedConversations
    | UpdatedConversationMembers
    | DeletedConversationMembers

  /** One `emit(name, payload)` to a target. */
  datatype Emit = Emit(target: Target, name: string, payload: Record)

  /** The event name each feed emits under. */
  function EventName(feed: Feed): string
  {
    match feed
    case NewChatMessages => "roomMessage"
    case NewRequests => "friend-request"
    case DeletedRequests => "delete-friend-request"
    case NewConversations => "new-conversation"
    case UpdatedConversations => "updated-conversation"
    case DeletedConversations => "delete-conversation"
    case UpdatedConversationMembers => "updated-conversation-member"
    case DeletedConversationMembers => "deleted-conversation-member"
  }

  /** The events a feed's `stream({ create | update | delete })` subscription
      yields: that kind of change, on that feed's table. */
  predicate Subscribed(feed: Feed, c: Change)
  {
    match feed
    case NewChatMessages => c.Created? && c.created.MessageRow?
    case NewRequests => c.Created? && c.created.RequestRow?
    case DeletedRequests => c.Deleted? && c.deleted.RequestRow?
    case NewConversations => c.Created? && c.created.ConversationRow?
    case UpdatedConversations => c.Updated? && c.after.ConversationRow?
    case DeletedConversations => c.Deleted? && c.deleted.ConversationRow?
    case UpdatedConversationMembers => c.Updated? && c.after.MemberRow?
    case DeletedConversationMembers => c.Deleted? && c.deleted.MemberRow?
  }

  /** The row a change carries to the client: the created row, the after-image
      of an update, the deleted row. */
  function Carried(c: Change): Record
  {
    match c
    case Created(r) => r
    case Updated(_, after) => after
    case Deleted(r) => r
  }

  /** The loop body of a feed: one emit per event, carrying the event's row
      unmodified. New messages go to the room named by their conversation;
      everything else goes to every connected socket. */
  function Translate(feed: Feed, c: Change): (e: Emit)
    requires Subscribed(feed, c)
    ensures e.payload == Carried(c)
    ensures e.name == EventName(feed)
    ensures e.target.Room? <==> feed == NewChatMessages
    ensures feed == NewChatMessages ==> e.target == Room(c.created.message.conversationId)
  {
    match feed
    case NewChatMessages => Emit(Room(c.created.message.conversationId), EventName(feed), c.created)
    case NewRequests => Emit(Everyone, EventName(feed), c.created)
    case DeletedRequests => Emit(Everyone, EventName(feed), c.deleted)
    case NewConversations => Emit(Everyone, EventName(feed), c.created)
    case UpdatedConversations => Emit(Everyone, EventName(feed), c.after)
    case DeletedConversations => Emit(Everyone, EventName(feed), c.deleted)
    case UpdatedConversationMembers => Emit(Everyone, EventName(feed), c.after)
    case DeletedConversationMembers => Emit(Everyone, EventName(feed), c.deleted)
  }

  /** Every event a feed's stream yields is of the kind the feed subscribed to. */
  predicate WellTyped(feed: Feed, items: seq<StreamItem>)
  {
    forall i :: 0 <= i < |items| && items[i].Event? ==> Subscribed(feed, items[i].change)
  }

  /** The `for await` loop of a feed inside its `try`: the emits in stream
      order; a stream error is caught and logged, and the feed ends there
      without resubscribing. */
  function RunFeed(feed: Feed, items: seq<StreamItem>): (r: seq<Emit>)
    requires WellTyped(feed, items)
    ensures |r| == FirstError(items)
    ensures forall i :: 0 <= i < |r| ==> items[i].Event? && r[i] == Translate(feed, items[i].change)
    decreases |items|
  {
    if items == [] || items[0].StreamError? then []
    else [Translate(feed, items[0].change)] + RunFeed(feed, items[1..])
  }

  /** The position of the first stream error, or the stream's length. */
  function FirstError(items: seq<StreamItem>): (k: nat)
    ensures k <= |items|
    ensures k < |items| ==> items[k].StreamError?
    ensures forall i :: 0 <= i < k ==> items[i].Event?
  {
    if items == [] || items[0].StreamError? then 0 else 1 + FirstError(items[1..])
  }

  /** Whatever the stream would yield after an error is never emitted. */
  lemma {:induction false} NothingAfterError(feed: Feed, before: seq<StreamItem>, after: seq<StreamItem>)
    requires WellTyped(feed, before + [StreamError] + after)
    ensures WellTyped(feed, before)
    ensures RunFeed(feed, before + [StreamError] + after) == RunFeed(feed, before + [StreamError])
    ensures |RunFeed(feed, before + [StreamError])| <= |before|
    decreases |before|
  {
    var all := before + [StreamError] + after;
    assert forall i :: 0 <= i < |before| ==> all[i] == before[i];
    if before == [] {
      assert all[0] == StreamError;
    } else if before[0].Event? {
      assert all[1..] == before[1..] + [StreamError] + after;
      assert (before + [StreamError])[1..] == before[1..] + [StreamError];
      NothingAfterError(feed, before[1..], after);
    }
  }

  /** A created message reaches exactly the connected sockets that sent a
      `joinRoom` for its conversation; every other emit reaches every
      connected socket. */
  lemma MessageReachesJoinedSockets(joins: seq<Join>, connected: set<SocketId>, feed: Feed, c: Change, s: SocketId)
    requires Subscribed(feed, c)
    ensures var reached := Recipients(JoinAll(map[], joins), connected, Translate(feed, c).target);
      && (feed == NewChatMessages ==>
            (s in reached <==> s in connected && exists i :: 0 <= i < |joins| && joins[i] == Join(s, c.created.message.conversationId)))
      && (feed != NewChatMessages ==> reached == connected)
  {
    if feed == NewChatMessages {
      InRoomIffJoined(map[], joins, s, c.created.message.conversationId);
    }
  }
}

=== FILE: conversations.dfy ===
/** The conversation operations of client/src/data/conversation.ts: the
    conversation list with unseen-message counts, the membership-gated
    conversation lookup, and group creation, deletion and leaving. */
module Conversations {
  import opened Wrappers
  import opened Seqs
  import opened Store
  import opened Users
  import opened Memberships
  import opened Messages
  import opened Schemas

  /* ==================== read tracking ==================== */

  /** The message a membership's read pointer names, looked up within the
      conversation (`findUnique({ where: { id, conversationId } })`). */
  function LastSeenMessage(db: Db, conversationId: Id, m: Membership): (r: Option<Message>)
    ensures r.Some? ==>
      && r.value in db.messages && r.value.conversationId == conversationId
      && m.lastSeenMessageId == Some(r.value.id)
    ensures r.None? <==>
      || !Present(m.lastSeenMessageId)
      || forall i :: 0 <= i < |db.messages| ==>
           db.messages[i].id != m.lastSeenMessageId.value || db.messages[i].conversationId != conversationId
  {
    if !Present(m.lastSeenMessageId) then None
    else First(db.messages, (x: Message) => x.id == m.lastSeenMessageId.value && x.conversationId == conversationId)
  }

  /** The creation time of the last-seen message, or -1 when the pointer is
      unset or names no message of this conversation. Timestamps are never
      negative, so -1 is earlier than every message. */
  function LastSeenTime(db: Db, conversationId: Id, m: Membership): (t: int)
    ensures t >= -1
    ensures LastSeenMessage(db, conversationId, m).None? <==> t == -1
    ensures LastSeenMessage(db, conversationId, m).Some? ==> t == LastSeenMessage(db, conversationId, m).value.createdAt
  {
    var seen := LastSeenMessage(db, conversationId, m);
    if seen.Some? then seen.value.createdAt else -1
  }

  /** A message the caller has not seen: newer than the read pointer and sent
      by someone else. */
  function UnseenBy(after: int, callerId: Id): Message -> bool
  {
    (x: Message) => x.createdAt > after && x.senderId != callerId
  }

  /** The sent by someone else half of `UnseenBy`. */
  function SentByOther(callerId: Id): Message -> bool
  {
    (x: Message) => x.senderId != callerId
  }

  /** The unseen-message count of `getConversations` for the caller's
      membership `m` in `conversationId`. */
  function UnseenCount(db: Db, conversationId: Id, m: Membership, callerId: Id): (n: nat)
    ensures n <= |MessagesOf(db, conversationId)|
    ensures MessagesOf(db, conversationId) == [] ==> n == 0
    // with no valid read pointer every message from someone else is unseen
    ensures LastSeenMessage(db, conversationId, m).None? ==> n == Count(MessagesOf(db, conversationId), SentByOther(callerId))
  {
    var t := LastSeenTime(db, conversationId, m);
    var ms := MessagesOf(db, conversationId);
    if t == -1 then
      FilterCongruent(ms, UnseenBy(t, callerId), SentByOther(callerId));
      Count(ms, UnseenBy(t, callerId))
    else
      Count(ms, UnseenBy(t, callerId))
  }

  /** The caller's own messages never count: a conversation whose every
      message is the caller's has no unseen message. */
  lemma OwnMessagesNeverUnseen(db: Db, conversationId: Id, m: Membership, callerId: Id)
    requires forall i :: 0 <= i < |MessagesOf(db, conversationId)| ==> MessagesOf(db, conversationId)[i].senderId == callerId
    ensures UnseenCount(db, conversationId, m, callerId) == 0
  {
    FilterNone(MessagesOf(db, conversationId), UnseenBy(LastSeenTime(db, conversationId, m), callerId));
  }

  /** A reference definition of the count: the number of positions in the
      conversation's messages holding an unseen message. */
  function UnseenPositions(ms: seq<Message>, after: int, callerId: Id): set<nat>
  {
    set i: nat | i < |ms| && UnseenAt(ms, i, after, callerId)
  }

  predicate UnseenAt(ms: seq<Message>, i: nat, after: int, callerId: Id)
    requires i < |ms|
  {
    ms[i].createdAt > after && ms[i].senderId != callerId
  }

  /** Counting the two-stage filter counts the positions holding an unseen message. */
  lemma CountMatchesPositions(ms: seq<Message>, after: int, callerId: Id)
    ensures Count(ms, UnseenBy(after, callerId)) == |UnseenPositions(ms, after, callerId)|
  {
    CountIsPositions(ms, UnseenBy(after, callerId));
    assert Positions(ms, UnseenBy(after, callerId)) == UnseenPositions(ms, after, callerId);
  }

  /** The unseen count is the number of messages of the conversation created
      strictly after the caller's last-seen message and not sent by the
      caller. */
  lemma UnseenCountCharacterised(db: Db, conversationId: Id, m: Membership, callerId: Id)
    ensures var ms := MessagesOf(db, conversationId);
      UnseenCount(db, conversationId, m, callerId) == |UnseenPositions(ms, LastSeenTime(db, conversationId, m), callerId)|
  {
    CountMatchesPositions(MessagesOf(db, conversationId), LastSeenTime(db, conversationId, m), callerId);
  }

  /* ==================== other members ==================== */

  function NotCaller(callerId: Id): Membership -> bool
  {
    (m: Membership) => m.memberId != callerId
  }

  /** The private-conversation partner: `filter(m => m.memberId !== caller)[0]`. */
  function OtherMembership(ms: seq<Membership>, callerId: Id): (r: Option<Membership>)
    ensures r.None? <==> forall i :: 0 <= i < |ms| ==> ms[i].memberId == callerId
    ensures r.Some? ==>
      exists k :: 
        && 0 <= k < |ms| && ms[k] == r.value && r.value.memberId != callerId
        && forall i :: 0 <= i < k ==> ms[i].memberId == callerId
  {
    var others := Filter(ms, NotCaller(callerId));
    FilterHeadIsFirst(ms, NotCaller(callerId));
    var r := if others == [] then None else Some(others[0]);
    assert r.Some? ==> ms[FirstIndex(ms, NotCaller(callerId))] == r.value;
    r
  }

  /* ==================== getConversations ==================== */

  /** One entry of the conversation list. */
  datatype ConversationSummary = ConversationSummary(
    conversation: Conversation,
    otherMemberDetails: Option<User>,
    lastMessageSent: Option<LastMessage>,
    unseenMessagesCount: nat)

  /** The partner shown for a private conversation: a stored user other than
      the caller, holding the first of the conversation's memberships that is
      not the caller's. */
  predicate IsPartner(db: Db, c: Conversation, callerId: Id, u: User)
  {
    var ms := MembershipsOf(db, c.id);
    && u in db.users && u.id != callerId
    && exists k :: 0 <= k < |ms| && ms[k].memberId == u.id && forall i :: 0 <= i < k ==> ms[i].memberId == callerId
  }

  /** Every lookup behind one entry of the list succeeds: the conversation's
      members, its last message with that message's sender, and for a private
      conversation the partner's user row. */
  predicate SummaryResolves(db: Db, callerId: Id, c: Conversation)
  {
    && c.id != ""
    && GetLastMessageById(db, c.lastMessageId).Ok?
    && (!c.isGroup ==> PartiesResolve(db, c, callerId))
  }

  /** What the entry `s` for membership `m` and its conversation `c` shows:
      the conversation itself, its last-message summary, the caller's unseen
      count, and the private partner (none for a group). */
  predicate Shows(db: Db, callerId: Id, m: Membership, c: Conversation, s: ConversationSummary)
  {
    && s.conversation == c
    && GetLastMessageById(db, c.lastMessageId) == Ok(s.lastMessageSent)
    && s.unseenMessagesCount == UnseenCount(db, c.id, m, callerId)
    && (c.isGroup <==> s.otherMemberDetails.None?)
    && (!c.isGroup ==> IsPartner(db, c, callerId, s.otherMemberDetails.value))
  }

  /** The second `Promise.all` step for one of the caller's memberships and the
      conversation it names. */
  function Summarise(db: Db, caller: User, m: Membership, c: Conversation): (r: Result<ConversationSummary, Error>)
    ensures r.Ok? <==> SummaryResolves(db, caller.id, c)
    ensures r.Ok? ==> Shows(db, caller.id, m, c, r.value)
  {
    var all := GetConversationMembers(db, c.id, ByConversationId);
    if all.None? then Err(MembersNotFound)
    else
      MembersOfConversation(db, c.id);
      var last := GetLastMessageById(db, c.lastMessageId);
      if last.Err? then Err(last.error)
      else
        var count := UnseenCount(db, c.id, m, caller.id);
        if c.isGroup then Ok(ConversationSummary(c, None, last.value, count))
        else
          var other := OtherMembership(all.value, caller.id);
          if other.None? then Err(UndefinedMember)
          else
            var details := GetUserById(db, other.value.memberId);
            if details.None? then Err(MemberDetailsNotFound)
            else
              PartnerIsFirstOther(db, c, caller.id);
              Ok(ConversationSummary(c, details, last.value, count))
  }

  /** The user found for the first non-caller membership of a private
      conversation is its partner. */
  lemma PartnerIsFirstOther(db: Db, c: Conversation, callerId: Id)
    requires !c.isGroup && PartiesResolve(db, c, callerId)
    ensures IsPartner(db, c, callerId, GetUserById(db, OtherMembership(MembershipsOf(db, c.id), callerId).value.memberId).value)
  {
    var ms := MembershipsOf(db, c.id);
    var other := OtherMembership(ms, callerId).value;
    var k :| 0 <= k < |ms| && ms[k] == other && forall i :: 0 <= i < k ==> ms[i].memberId == callerId;
    assert ms[k].memberId == GetUserById(db, other.memberId).value.id;
  }

  /** The conversation row a membership names, as the first `Promise.all` looks it up. */
  function ConversationOf(db: Db, m: Membership): Result<Conversation, Error>
  {
    var c := FindConversation(db, m.conversationId);
    if c.None? then Err(MembersNotFound) else Ok(c.value)
  }

  /** The first `Promise.all`: the conversation row of each membership. */
  function LoadConversations(db: Db, ms: seq<Membership>): (r: Result<seq<Conversation>, Error>)
    ensures r.Ok? <==> forall i :: 0 <= i < |ms| ==> FindConversation(db, ms[i].conversationId).Some?
    ensures r.Ok? ==>
      && |r.value| == |ms|
      && forall i :: 0 <= i < |ms| ==>
           && r.value[i] in db.conversations && r.value[i].id == ms[i].conversationId
           && FindConversation(db, ms[i].conversationId) == Some(r.value[i])
  {
    AllOf(ms, (m: Membership) => ConversationOf(db, m))
  }

  /** The second `Promise.all`, over the memberships paired with their conversations. */
  function SummariseAll(db: Db, caller: User, ms: seq<Membership>, cs: seq<Conversation>): (r: Result<seq<ConversationSummary>, Error>)
    requires |ms| == |cs|
    ensures r.Ok? <==> forall i :: 0 <= i < |ms| ==> SummaryResolves(db, caller.id, cs[i])
    ensures r.Ok? ==>
      && |r.value| == |ms|
      && forall i :: 0 <= i < |ms| ==> Shows(db, caller.id, ms[i], cs[i], r.value[i])
  {
    var pairs := seq(|ms|, i requires 0 <= i < |ms| => (ms[i], cs[i]));
    var step := (p: (Membership, Conversation)) => Summarise(db, caller, p.0, p.1);
    var r := AllOf(pairs, step);
    assert forall i :: 0 <= i < |ms| ==> step(pairs[i]) == Summarise(db, caller, ms[i], cs[i]);
    r
  }

  /** The caller's memberships, in table order (`getConversationMembers(id, "byMemberId")`). */
  function MembershipsOfUser(db: Db, userId: Id): seq<Membership>
  {
    Filter(db.memberships, HasKey(ByMemberId, userId))
  }

  /** The entry for membership `m` can be built: its conversation is stored
      and every lookup behind the entry succeeds. */
  predicate EntryResolves(db: Db, callerId: Id, m: Membership)
  {
    var c := FindConversation(db, m.conversationId);
    c.Some? && SummaryResolves(db, callerId, c.value)
  }

  /** `getConversations`: one entry per membership of the caller, in
      membership order, each with its conversation, the private partner (none
      for a group), the last-message summary and the unseen count. */
  function GetConversations(db: Db, authUserId: Option<Id>): (r: Result<seq<ConversationSummary>, Error>)
    ensures GetLoggedInUser(db, authUserId).None? ==> r == Err(NotLoggedIn)
    // a logged-in caller gets the list iff every one of its entries can be built
    ensures GetLoggedInUser(db, authUserId).Some? ==>
      var ms := MembershipsOfUser(db, authUserId.value);
      (r.Ok? <==> forall i :: 0 <= i < |ms| ==> EntryResolves(db, authUserId.value, ms[i]))
    // entry i is built from the caller's i-th membership and the conversation it names
    ensures r.Ok? ==>
      var ms := MembershipsOfUser(db, authUserId.value);
      && |r.value| == |ms|
      && forall i :: 0 <= i < |ms| ==>
           && FindConversation(db, ms[i].conversationId) == Some(r.value[i].conversation)
           && Shows(db, authUserId.value, ms[i], r.value[i].conversation, r.value[i])
  {
    var user := GetLoggedInUser(db, authUserId);
    if user.None? then Err(NotLoggedIn)
    else
      var ms := GetConversationMembers(db, user.value.id, ByMemberId);
      if ms.None? then Err(MembersNotFound)
      else
        ListConversations(db, user.value, ms.value)
  }

  /** Both `Promise.all` steps of `getConversations` over the memberships `ms`. */
  function ListConversations(db: Db, caller: User, ms: seq<Membership>): (r: Result<seq<ConversationSummary>, Error>)
    ensures r.Ok? <==> forall i :: 0 <= i < |ms| ==> EntryResolves(db, caller.id, ms[i])
    ensures r.Ok? ==>
      && |r.value| == |ms|
      && forall i :: 0 <= i < |ms| ==>
           && FindConversation(db, ms[i].conversationId) == Some(r.value[i].conversation)
           && Shows(db, caller.id, ms[i], r.value[i].conversation, r.value[i])
  {
    var cs := LoadConversations(db, ms);
    if cs.Err? then
      MissingConversation(db, caller.id, ms);
      Err(cs.error)
    else
      LoadedConversations(db, caller.id, ms, cs.value);
      SummariseAll(db, caller, ms, cs.value)
  }

  /** A membership whose conversation is missing has no entry. */
  lemma MissingConversation(db: Db, callerId: Id, ms: seq<Membership>)
    requires LoadConversations(db, ms).Err?
    ensures exists i :: 0 <= i < |ms| && !EntryResolves(db, callerId, ms[i])
  {
    var i :| 0 <= i < |ms| && FindConversation(db, ms[i].conversationId).None?;
  }

  /** Once every conversation is loaded, an entry can be built exactly when
      the lookups behind its conversation succeed. */
  lemma LoadedConversations(db: Db, callerId: Id, ms: seq<Membership>, cs: seq<Conversation>)
    requires LoadConversations(db, ms) == Ok(cs)
    ensures |cs| == |ms|
    ensures forall i :: 0 <= i < |ms| ==> (EntryResolves(db, callerId, ms[i]) <==> SummaryResolves(db, callerId, cs[i]))
    ensures forall i :: 0 <= i < |ms| ==> FindConversation(db, ms[i].conversationId) == Some(cs[i])
  {
  }

  /* ==================== getConversationById ==================== */

  /** The private partner as `getConversationById` returns it. */
  datatype Partner = Partner(user: User, lastSeenMessageId: Option<Id>)

  /** One entry of a group's `otherMembers`. */
  datatype GroupMember = GroupMember(id: Id, username: string, lastSeenMessageId: Option<Id>)

  datatype ConversationView = ConversationView(
    conversation: Conversation,
    otherMember: Option<Partner>,
    otherMembers: Option<seq<GroupMember>>)

  /** One group member's entry, looked up by id. */
  function GroupMemberOf(db: Db, m: Membership): Result<GroupMember, Error>
  {
    var u := GetUserById(db, m.memberId);
    if u.None? then Err(MemberDetailsNotFound) else Ok(GroupMember(u.value.id, u.value.username, m.lastSeenMessageId))
  }

  /** The entry shows the member's stored username. */
  predicate ShowsMember(db: Db, m: Membership, g: GroupMember)
  {
    var u := GetUserById(db, m.memberId);
    u.Some? && g.id == m.memberId && g.username == u.value.username && g.lastSeenMessageId == m.lastSeenMessageId
  }

  /** The group members other than the caller, each looked up by id. */
  function GroupMembers(db: Db, others: seq<Membership>): (r: Result<seq<GroupMember>, Error>)
    ensures r.Ok? <==> forall i :: 0 <= i < |others| ==> GetUserById(db, others[i].memberId).Some?
    ensures r.Ok? ==>
      && |r.value| == |others|
      && forall i :: 0 <= i < |others| ==> ShowsMember(db, others[i], r.value[i])
  {
    AllOf(others, (m: Membership) => GroupMemberOf(db, m))
  }

  /** The user lookups `getConversationById` makes after its membership check
      all succeed: the private partner's, or every other group member's. */
  predicate PartiesResolve(db: Db, c: Conversation, callerId: Id)
  {
    var ms := MembershipsOf(db, c.id);
    if c.isGroup then
      var others := Filter(ms, NotCaller(callerId));
      forall i :: 0 <= i < |others| ==> GetUserById(db, others[i].memberId).Some?
    else
      var other := OtherMembership(ms, callerId);
      other.Some? && GetUserById(db, other.value.memberId).Some?
  }

  /** `getConversationById`: the conversation with its private partner or its
      other group members, for a caller who is a member of it. */
  function GetConversationById(db: Db, authUserId: Option<Id>, conversationId: Id): (r: Result<ConversationView, Error>)
    ensures GetLoggedInUser(db, authUserId).None? ==> r == Err(NotLoggedIn)
    ensures GetLoggedInUser(db, authUserId).Some? && FindConversation(db, conversationId).None? ==> r == Err(ConversationNotFound)
    // membership gate
    ensures && GetLoggedInUser(db, authUserId).Some? && conversationId != ""
            && !IsMember(db, authUserId.value, conversationId)
            ==> r.Err?
    // a member of an existing conversation gets it iff the users shown with it exist
    ensures && GetLoggedInUser(db, authUserId).Some? && conversationId != ""
            && FindConversation(db, conversationId).Some? && IsMember(db, authUserId.value, conversationId)
            ==> (r.Ok? <==> PartiesResolve(db, FindConversation(db, conversationId).value, authUserId.value))
    ensures r.Ok? ==>
      && r.value.conversation in db.conversations && r.value.conversation.id == conversationId
      && (conversationId != "" ==> IsMember(db, authUserId.value, conversationId))
    // a private conversation shows the first other member, with its read pointer
    ensures r.Ok? && !r.value.conversation.isGroup ==>
      && r.value.otherMembers.None? && r.value.otherMember.Some?
      && var p := r.value.otherMember.value;
      && p.user in db.users && p.user.id != authUserId.value
      && var ms := MembershipsOf(db, conversationId);
      && exists k :: 
           && 0 <= k < |ms| && ms[k].memberId == p.user.id && ms[k].lastSeenMessageId == p.lastSeenMessageId
           && forall i :: 0 <= i < k ==> ms[i].memberId == authUserId.value
    // a group lists every other membership, in membership order, with its read pointer
    ensures r.Ok? && r.value.conversation.isGroup ==>
      && r.value.otherMember.None? && r.value.otherMembers.Some?
      && var others := Filter(MembershipsOf(db, conversationId), NotCaller(authUserId.value));
      && var gs := r.value.otherMembers.value;
      && |gs| == |others|
      && forall i :: 0 <= i < |gs| ==> ShowsMember(db, others[i], gs[i]) && gs[i].id != authUserId.value
  {
    var user := GetLoggedInUser(db, authUserId);
    if user.None? then Err(NotLoggedIn)
    else
      var c := FindConversation(db, conversationId);
      if c.None? then Err(ConversationNotFound)
      else if GetUniqueConversationMember(db, user.value.id, Some(conversationId)).None? then Err(NotAMember)
      else
        var all := GetConversationMembers(db, c.value.id, ByConversationId);
        if all.None? then Err(MembersNotFound)
        else
          MembersOfConversation(db, conversationId);
          ShowConversation(db, c.value, user.value.id)
  }

  /** The part of `getConversationById` after the membership check: the
      private partner, or the other group members, looked up among the
      conversation's memberships. */
  function ShowConversation(db: Db, c: Conversation, callerId: Id): (r: Result<ConversationView, Error>)
    ensures r.Ok? <==> PartiesResolve(db, c, callerId)
    ensures r.Ok? ==> r.value.conversation == c
    ensures r.Ok? && !c.isGroup ==>
      && r.value.otherMembers.None? && r.value.otherMember.Some?
      && var p := r.value.otherMember.value;
      && p.user in db.users && p.user.id != callerId
      && var ms := MembershipsOf(db, c.id);
      && exists k :: 
           && 0 <= k < |ms| && ms[k].memberId == p.user.id && ms[k].lastSeenMessageId == p.lastSeenMessageId
           && forall i :: 0 <= i < k ==> ms[i].memberId == callerId
    ensures r.Ok? && c.isGroup ==>
      && r.value.otherMember.None? && r.value.otherMembers.Some?
      && var others := Filter(MembershipsOf(db, c.id), NotCaller(callerId));
      && var gs := r.value.otherMembers.value;
      && |gs| == |others|
      && forall i :: 0 <= i < |gs| ==> ShowsMember(db, others[i], gs[i]) && gs[i].id != callerId
  {
    var ms := MembershipsOf(db, c.id);
    if !c.isGroup then
      var other := OtherMembership(ms, callerId);
      if other.None? then Err(UndefinedMember)
      else
        var details := GetUserById(db, other.value.memberId);
        if details.None? then Err(MemberDetailsNotFound)
        else Ok(ConversationView(c, Some(Partner(details.value, other.value.lastSeenMessageId)), None))
    else
      var others := Filter(ms, NotCaller(callerId));
      var gs := GroupMembers(db, others);
      if gs.Err? then Err(gs.error)
      else Ok(ConversationView(c, None, Some(gs.value)))
  }

  /* ==================== createGroup ==================== */

  predicate FreshConversationId(db: Db, id: Id)
  {
    forall i :: 0 <= i < |db.conversations| ==> db.conversations[i].id != id
  }

  /** Membership ids the store has not used, pairwise distinct. */
  predicate FreshMembershipIds(db: Db, ids: seq<Id>)
  {
    && (forall i, j :: 0 <= i < j < |ids| ==> ids[i] != ids[j])
    && forall i :: 0 <= i < |ids| ==> FreshMembershipId(db, ids[i])
  }

  /** `addConversationMember` for each user in turn: one row per user, in list
      order, each with no read pointer yet. */
  function AddMembers(db: Db, userIds: seq<Id>, conversationId: Id, ids: seq<Id>): (r: Db)
    requires |ids| == |userIds| && FreshMembershipIds(db, ids)
    ensures r == db.(memberships := r.memberships)
    ensures |r.memberships| == |db.memberships| + |userIds|
    ensures r.memberships[..|db.memberships|] == db.memberships
    ensures forall i :: 0 <= i < |userIds| ==> r.memberships[|db.memberships| + i].memberId == userIds[i]
    ensures forall i :: |db.memberships| <= i < |r.memberships| ==>
      r.memberships[i].conversationId == conversationId && r.memberships[i].lastSeenMessageId.None?
    ensures forall i :: 0 <= i < |userIds| ==> IsMember(r, userIds[i], conversationId)
    ensures WellFormed(db) ==> WellFormed(r)
  {
    var rows := seq(|userIds|, i requires 0 <= i < |userIds| => Membership(ids[i], userIds[i], conversationId, None));
    var r := db.(memberships := db.memberships + rows);
    AppendedRows(db.memberships, userIds, conversationId, ids, rows);
    AppendedRowsJoin(db, userIds, conversationId, ids, rows);
    assert WellFormed(db) ==> WellFormed(r) by {
      if WellFormed(db) {
        NewRowsKeepKeysDistinct(db.memberships, rows, ids);
      }
    }
    r
  }

  /** The rows `AddMembers` appends sit after the stored ones, in the order of
      the users they are for, all in the conversation and without a read pointer. */
  lemma AppendedRows(stored: seq<Membership>, userIds: seq<Id>, conversationId: Id, ids: seq<Id>, rows: seq<Membership>)
    requires |ids| == |userIds| == |rows|
    requires forall i :: 0 <= i < |rows| ==> rows[i] == Membership(ids[i], userIds[i], conversationId, None)
    ensures (stored + rows)[..|stored|] == stored
    ensures forall i :: 0 <= i < |userIds| ==> (stored + rows)[|stored| + i].memberId == userIds[i]
    ensures forall i :: |stored| <= i < |stored| + |rows| ==>
      (stored + rows)[i].conversationId == conversationId && (stored + rows)[i].lastSeenMessageId.None?
  {
    var all := stored + rows;
    assert forall i :: 0 <= i < |userIds| ==> all[|stored| + i] == rows[i];
    assert forall i :: |stored| <= i < |all| ==> all[i] == rows[i - |stored|];
  }

  /** Every user `AddMembers` is given is a member afterwards. */
  lemma AppendedRowsJoin(db: Db, userIds: seq<Id>, conversationId: Id, ids: seq<Id>, rows: seq<Membership>)
    requires |ids| == |userIds| == |rows|
    requires forall i :: 0 <= i < |rows| ==> rows[i] == Membership(ids[i], userIds[i], conversationId, None)
    ensures forall i :: 0 <= i < |userIds| ==> IsMember(db.(memberships := db.memberships + rows), userIds[i], conversationId)
  {
    var r := db.(memberships := db.memberships + rows);
    forall i | 0 <= i < |userIds| ensures IsMember(r, userIds[i], conversationId) {
      assert r.memberships[|db.memberships| + i] == rows[i];
    }
  }

  /** Rows with pairwise distinct ids that no stored row uses keep the
      membership ids unique. */
  lemma NewRowsKeepKeysDistinct(stored: seq<Membership>, rows: seq<Membership>, ids: seq<Id>)
    requires DistinctBy(stored, MembershipKey)
    requires |rows| == |ids| && forall i :: 0 <= i < |rows| ==> rows[i].id == ids[i]
    requires forall i, j :: 0 <= i < j < |ids| ==> ids[i] != ids[j]
    requires forall i, j :: 0 <= i < |stored| && 0 <= j < |ids| ==> stored[i].id != ids[j]
    ensures DistinctBy(stored + rows, MembershipKey)
  {
    var all := stored + rows;
    var n := |stored|;
    forall i, j | 0 <= i < j < |all| ensures MembershipKey(all[i]) != MembershipKey(all[j]) {
      if j < n {
        assert all[i] == stored[i] && all[j] == stored[j];
      } else if i < n {
        assert all[i] == stored[i] && all[j] == rows[j - n];
      } else {
        assert all[i] == rows[i - n] && all[j] == rows[j - n];
      }
    }
  }

  /** The writes of `createGroup`: the group conversation, then a membership
      for the caller and one per selected member. */
  function OpenGroup(db: Db, callerId: Id, name: string, members: seq<Id>, conversationId: Id, memberIds: seq<Id>)
    : (r: Db)
    requires FreshConversationId(db, conversationId)
    requires |memberIds| == |members| + 1 && FreshMembershipIds(db, memberIds)
    ensures r.conversations == db.conversations + [Conversation(conversationId, true, Some(name), None)]
    ensures r.users == db.users && r.messages == db.messages
    ensures r.requests == db.requests && r.friends == db.friends
    ensures |r.memberships| == |db.memberships| + |members| + 1
    ensures r.memberships[..|db.memberships|] == db.memberships
    ensures forall i :: |db.memberships| <= i < |r.memberships| ==>
      r.memberships[i].conversationId == conversationId && r.memberships[i].lastSeenMessageId.None?
  {
    var group := Conversation(conversationId, true, Some(name), None);
    AddMembers(db.(conversations := db.conversations + [group]), [callerId] + members, conversationId, memberIds)
  }

  /** After `OpenGroup` the caller and every selected member belong to the
      group, and every new row is for one of them. */
  lemma OpenGroupMembers(db: Db, callerId: Id, name: string, members: seq<Id>, conversationId: Id, memberIds: seq<Id>, r: Db)
    requires FreshConversationId(db, conversationId)
    requires |memberIds| == |members| + 1 && FreshMembershipIds(db, memberIds)
    requires r == OpenGroup(db, callerId, name, members, conversationId, memberIds)
    ensures IsMember(r, callerId, conversationId)
    ensures forall i :: 0 <= i < |members| ==> IsMember(r, members[i], conversationId)
    ensures forall i :: |db.memberships| <= i < |r.memberships| ==>
      r.memberships[i].memberId == callerId || r.memberships[i].memberId in members
  {
    var n := |db.memberships|;
    var userIds := [callerId] + members;
    assert userIds[0] == callerId;
    forall i | 0 <= i < |members| ensures IsMember(r, members[i], conversationId) {
      assert members[i] == userIds[i + 1];
    }
    forall i | n <= i < |r.memberships|
      ensures r.memberships[i].memberId == callerId || r.memberships[i].memberId in members
    {
      var j := i - n;
      assert r.memberships[n + j].memberId == userIds[j];
      assert j > 0 ==> userIds[j] == members[j - 1];
    }
  }

  /** `OpenGroup` keeps every primary key unique. */
  lemma OpenGroupKeepsWellFormed(db: Db, callerId: Id, name: string, members: seq<Id>, conversationId: Id, memberIds: seq<Id>)
    requires WellFormed(db)
    requires FreshConversationId(db, conversationId)
    requires |memberIds| == |members| + 1 && FreshMembershipIds(db, memberIds)
    ensures WellFormed(OpenGroup(db, callerId, name, members, conversationId, memberIds))
  {
    var group := Conversation(conversationId, true, Some(name), None);
    DistinctSnoc(db.conversations, group, ConversationKey);
  }

  /** `createGroup`: the form is validated again, then the group is opened
      with the caller as its first member. `conversationId` and `memberIds`
      are the ids the store assigns. */
  function CreateGroup(db: Db, authUserId: Option<Id>, form: CreateGroupForm, conversationId: Id, memberIds: seq<Id>)
    : (r: Result<Db, Error>)
    requires FreshConversationId(db, conversationId)
    requires |memberIds| == |form.members| + 1 && FreshMembershipIds(db, memberIds)
    ensures GetLoggedInUser(db, authUserId).None? ==> r == Err(NotLoggedIn)
    ensures GetLoggedInUser(db, authUserId).Some? && (form.name == "" || form.members == []) ==> r == Err(InvalidData)
    ensures r.Ok? <==> GetLoggedInUser(db, authUserId).Some? && form.name != "" && form.members != []
    ensures r.Ok? ==> r.value.conversations == db.conversations + [Conversation(conversationId, true, Some(form.name), None)]
    ensures r.Ok? ==> |r.value.memberships| == |db.memberships| + |form.members| + 1
    // the other tables and the earlier memberships are untouched
    ensures r.Ok? ==>
      && r.value.users == db.users && r.value.messages == db.messages
      && r.value.requests == db.requests && r.value.friends == db.friends
      && r.value.memberships[..|db.memberships|] == db.memberships
    // every new membership is in the new group and has no read pointer
    ensures r.Ok? ==> forall i :: |db.memberships| <= i < |r.value.memberships| ==>
      r.value.memberships[i].conversationId == conversationId && r.value.memberships[i].lastSeenMessageId.None?
    ensures r.Ok? ==> IsMember(r.value, authUserId.value, conversationId)
    ensures r.Ok? ==> forall i :: 0 <= i < |form.members| ==> IsMember(r.value, form.members[i], conversationId)
    ensures r.Ok? && WellFormed(db) ==> WellFormed(r.value)
  {
    var user := GetLoggedInUser(db, authUserId);
    if user.None? then Err(NotLoggedIn)
    else if ParseCreateGroupForm(form).Err? then Err(InvalidData)
    else
      var r := OpenGroup(db, user.value.id, form.name, form.members, conversationId, memberIds);
      OpenGroupMembers(db, user.value.id, form.name, form.members, conversationId, memberIds, r);
      assert WellFormed(db) ==> WellFormed(r) by {
        if WellFormed(db) {
          OpenGroupKeepsWellFormed(db, user.value.id, form.name, form.members, conversationId, memberIds);
        }
      }
      Ok(r)
  }

  /* ==================== deleteGroup ==================== */

  function MessageElsewhere(conversationId: Id): Message -> bool
  {
    (m: Message) => m.conversationId != conversationId
  }

  function MembershipElsewhere(conversationId: Id): Membership -> bool
  {
    (m: Membership) => m.conversationId != conversationId
  }

  function OtherConversation(conversationId: Id): Conversation -> bool
  {
    (c: Conversation) => c.id != conversationId
  }

  /** `deleteGroup`: removes the conversation's messages, then its memberships,
      then the conversation. The only check is that the conversation exists:
      neither the caller's membership nor `isGroup` is looked at. */
  function DeleteGroup(db: Db, authUserId: Option<Id>, conversationId: Id): (r: Result<Db, Error>)
    ensures GetLoggedInUser(db, authUserId).None? ==> r == Err(NotLoggedIn)
    ensures GetLoggedInUser(db, authUserId).Some? && FindConversation(db, conversationId).None? ==> r == Err(ConversationNotFound)
    ensures r.Ok? <==> GetLoggedInUser(db, authUserId).Some? && FindConversation(db, conversationId).Some?
    ensures r.Ok? ==>
      var d := r.value;
      // nothing of the conversation remains
      && (forall i :: 0 <= i < |d.messages| ==> d.messages[i].conversationId != conversationId)
      && (forall i :: 0 <= i < |d.memberships| ==> d.memberships[i].conversationId != conversationId)
      && (forall i :: 0 <= i < |d.conversations| ==> d.conversations[i].id != conversationId)
      // every row of every other conversation stays, unchanged
      && (forall i :: 0 <= i < |db.messages| && db.messages[i].conversationId != conversationId ==> db.messages[i] in d.messages)
      && (forall i :: 0 <= i < |db.memberships| && db.memberships[i].conversationId != conversationId ==> db.memberships[i] in d.memberships)
      && (forall i :: 0 <= i < |db.conversations| && db.conversations[i].id != conversationId ==> db.conversations[i] in d.conversations)
      && multiset(d.messages) <= multiset(db.messages)
      && multiset(d.memberships) <= multiset(db.memberships)
      && multiset(d.conversations) <= multiset(db.conversations)
      && d.users == db.users && d.requests == db.requests && d.friends == db.friends
    ensures r.Ok? && WellFormed(db) ==> WellFormed(r.value)
  {
    var user := GetLoggedInUser(db, authUserId);
    if user.None? then Err(NotLoggedIn)
    else if FindConversation(db, conversationId).None? then Err(ConversationNotFound)
    else
      var d := db.(
        messages := Filter(db.messages, MessageElsewhere(conversationId)),
        memberships := Filter(db.memberships, MembershipElsewhere(conversationId)),
        conversations := Filter(db.conversations, OtherConversation(conversationId)));
      assert WellFormed(db) ==> WellFormed(d) by {
        if WellFormed(db) {
          FilterKeepsDistinct(db.messages, MessageElsewhere(conversationId), MessageKey);
          FilterKeepsDistinct(db.memberships, MembershipElsewhere(conversationId), MembershipKey);
          FilterKeepsDistinct(db.conversations, OtherConversation(conversationId), ConversationKey);
        }
      }
      Ok(d)
  }

  /** After a group is deleted nobody is a member of it: reading it, sending
      to it, or leaving it is refused, and its history reads as empty. */
  lemma DeleteGroupRevokesAccess(db: Db, authUserId: Option<Id>, conversationId: Id, reader: Option<Id>)
    requires DeleteGroup(db, authUserId, conversationId).Ok?
    requires conversationId != ""
    ensures var d := DeleteGroup(db, authUserId, conversationId).value;
      && (forall u :: !IsMember(d, u, conversationId))
      && GetConversationById(d, reader, conversationId).Err?
      && LeaveGroup(d, reader, conversationId).Err?
      && (GetLoggedInUser(d, reader).Some? ==> GetMessages(d, reader, conversationId) == Ok([]))
  {
    var d := DeleteGroup(db, authUserId, conversationId).value;
    assert FindConversation(d, conversationId).None?;
  }

  /* ==================== leaveGroup ==================== */

  function OtherMembershipRow(id: Id): Membership -> bool
  {
    (m: Membership) => m.id != id
  }

  /** `leaveGroup`: deletes the caller's membership row (the first one found)
      in an existing conversation; refused when the caller is not a member. */
  function LeaveGroup(db: Db, authUserId: Option<Id>, conversationId: Id): (r: Result<Db, Error>)
    ensures GetLoggedInUser(db, authUserId).None? ==> r == Err(NotLoggedIn)
    ensures GetLoggedInUser(db, authUserId).Some? && FindConversation(db, conversationId).None? ==> r == Err(ConversationNotFound)
    ensures && GetLoggedInUser(db, authUserId).Some? && FindConversation(db, conversationId).Some?
            && conversationId != "" && !IsMember(db, authUserId.value, conversationId)
            ==> r == Err(NotAMember)
    // a member of an existing conversation always leaves it
    ensures && GetLoggedInUser(db, authUserId).Some? && FindConversation(db, conversationId).Some?
            && conversationId != "" && IsMember(db, authUserId.value, conversationId)
            ==> r.Ok?
    ensures r.Ok? ==>
      && r.value == db.(memberships := r.value.memberships)
      && exists k ::
           && 0 <= k < |db.memberships|
           && db.memberships[k].memberId == authUserId.value
           && (conversationId != "" ==> db.memberships[k].conversationId == conversationId)
           && (forall i :: 0 <= i < |r.value.memberships| ==> r.value.memberships[i].id != db.memberships[k].id)
           && (forall i :: 0 <= i < |db.memberships| && db.memberships[i].id != db.memberships[k].id ==>
                 db.memberships[i] in r.value.memberships)
    ensures r.Ok? && WellFormed(db) ==> WellFormed(r.value)
  {
    var user := GetLoggedInUser(db, authUserId);
    if user.None? then Err(NotLoggedIn)
    else if FindConversation(db, conversationId).None? then Err(ConversationNotFound)
    else
      var membership := GetUniqueConversationMember(db, user.value.id, Some(conversationId));
      if membership.None? then Err(NotAMember)
      else
        Ok(RemoveMembership(db, membership.value))
  }

  /** The delete of `leaveGroup`: every row carrying `row`'s id goes, every
      other row stays. */
  function RemoveMembership(db: Db, row: Membership): (r: Db)
    ensures r == db.(memberships := r.memberships)
    ensures forall i :: 0 <= i < |r.memberships| ==> r.memberships[i].id != row.id
    ensures forall i :: 0 <= i < |db.memberships| && db.memberships[i].id != row.id ==> db.memberships[i] in r.memberships
    ensures multiset(r.memberships) <= multiset(db.memberships)
    ensures WellFormed(db) ==> WellFormed(r)
  {
    var d := db.(memberships := Filter(db.memberships, OtherMembershipRow(row.id)));
    assert WellFormed(db) ==> WellFormed(d) by {
      if WellFormed(db) {
        FilterKeepsDistinct(db.memberships, OtherMembershipRow(row.id), MembershipKey);
      }
    }
    d
  }

  /** With unique row ids, leaving removes exactly one membership row, and the
      remaining rows keep their order. */
  lemma LeaveGroupRemovesOneRow(db: Db, authUserId: Option<Id>, conversationId: Id)
    requires WellFormed(db)
    requires LeaveGroup(db, authUserId, conversationId).Ok?
    ensures var d := LeaveGroup(db, authUserId, conversationId).value;
      exists k :: 
        && 0 <= k < |db.memberships|
        && db.memberships[k].memberId == authUserId.value
        && d.memberships == db.memberships[..k] + db.memberships[k + 1..]
  {
    var user := GetLoggedInUser(db, authUserId).value;
    var row := GetUniqueConversationMember(db, user.id, Some(conversationId)).value;
    var k :| 0 <= k < |db.memberships| && db.memberships[k] == row;
    forall i | 0 <= i < |db.memberships| && i != k ensures OtherMembershipRow(row.id)(db.memberships[i]) {
      if i < k {
        assert MembershipKey(db.memberships[i]) != MembershipKey(db.memberships[k]);
      } else {
        assert MembershipKey(db.memberships[k]) != MembershipKey(db.memberships[i]);
      }
    }
    FilterDropsOne(db.memberships, OtherMembershipRow(row.id), k);
  }
}

=== FILE: flows.dfy ===
/** Properties that relate several operations of client/src/data/messages.ts
    and client/src/data/conversation.ts: what a sent message does to the
    history and to the unseen-message counts of the conversation list. */
module Flows {
  import opened Wrappers
  import opened Seqs
  import opened Store
  import opened Users
  import opened Memberships
  import opened Messages
  import opened Conversations

  /** Sending appends exactly one message to the conversation's history. */
  lemma SendAppendsToHistory(db: Db, authUserId: Option<Id>, conversationId: Id, kind: string, content: seq<string>, newId: Id, now: nat)
    requires FreshMessageId(db, newId)
    requires CreateMessage(db, authUserId, conversationId, kind, content, newId, now).out.Ok?
    ensures var s := CreateMessage(db, authUserId, conversationId, kind, content, newId, now);
      MessagesOf(s.db, conversationId) == MessagesOf(db, conversationId) + [s.out.value]
  {
    var s := CreateMessage(db, authUserId, conversationId, kind, content, newId, now);
    FilterSnoc(db.messages, s.out.value, (m: Message) => m.conversationId == conversationId);
  }

  /** A message the caller sends shows up in the caller's next read of the
      history, once, marked as the caller's own; every other entry stays. */
  lemma SentMessageIsRead(db: Db, authUserId: Option<Id>, conversationId: Id, kind: string, content: seq<string>, newId: Id, now: nat)
    requires FreshMessageId(db, newId) && conversationId != ""
    requires CreateMessage(db, authUserId, conversationId, kind, content, newId, now).out.Ok?
    requires GetMessages(db, authUserId, conversationId).Ok?
    ensures var s := CreateMessage(db, authUserId, conversationId, kind, content, newId, now);
      var before := GetMessages(db, authUserId, conversationId);
      var after := GetMessages(s.db, authUserId, conversationId);
      && after.Ok?
      && multiset(MessagesIn(after.value)) == multiset(MessagesIn(before.value)) + multiset{s.out.value}
      && exists i :: 0 <= i < |after.value| && after.value[i].message == s.out.value && after.value[i].isCurrentUser
  {
    var s := CreateMessage(db, authUserId, conversationId, kind, content, newId, now);
    SendAppendsToHistory(db, authUserId, conversationId, kind, content, newId, now);
    ReadAfterAppend(db, s.db, authUserId, conversationId, s.out.value);
  }

  /** The history read after one message from the caller is appended to a
      conversation the caller belongs to. */
  lemma ReadAfterAppend(db: Db, d: Db, authUserId: Option<Id>, conversationId: Id, m: Message)
    requires conversationId != ""
    requires d.users == db.users && d.memberships == db.memberships
    requires MessagesOf(d, conversationId) == MessagesOf(db, conversationId) + [m]
    requires GetMessages(db, authUserId, conversationId).Ok?
    requires authUserId.Some? && m.senderId == authUserId.value && IsMember(db, authUserId.value, conversationId)
    ensures var after := GetMessages(d, authUserId, conversationId);
      && after.Ok?
      && multiset(MessagesIn(after.value)) == multiset(MessagesIn(GetMessages(db, authUserId, conversationId).value)) + multiset{m}
      && exists i :: 0 <= i < |after.value| && after.value[i].message == m && after.value[i].isCurrentUser
  {
    ReadSucceedsAfterAppend(db, d, authUserId, conversationId, m);
    var after := GetMessages(d, authUserId, conversationId).value;
    assert multiset(MessagesIn(after)) == multiset(MessagesOf(db, conversationId)) + multiset{m};
    OwnEntryListed(after, m, authUserId.value);
  }

  /** A listed message the caller sent appears in an entry marked as the caller's. */
  lemma OwnEntryListed(vs: seq<MessageView>, m: Message, callerId: Id)
    requires m in multiset(MessagesIn(vs)) && m.senderId == callerId
    requires forall i :: 0 <= i < |vs| ==> (vs[i].isCurrentUser <==> vs[i].message.senderId == callerId)
    ensures exists i :: 0 <= i < |vs| && vs[i].message == m && vs[i].isCurrentUser
  {
    assert m in MessagesIn(vs);
    var i :| 0 <= i < |vs| && MessagesIn(vs)[i] == m;
  }

  /** The caller's read still succeeds once the caller's message is appended. */
  lemma ReadSucceedsAfterAppend(db: Db, d: Db, authUserId: Option<Id>, conversationId: Id, m: Message)
    requires conversationId != ""
    requires d.users == db.users && d.memberships == db.memberships
    requires MessagesOf(d, conversationId) == MessagesOf(db, conversationId) + [m]
    requires GetMessages(db, authUserId, conversationId).Ok?
    requires authUserId.Some? && m.senderId == authUserId.value && IsMember(db, authUserId.value, conversationId)
    ensures GetMessages(d, authUserId, conversationId).Ok?
  {
    var user := GetLoggedInUser(db, authUserId).value;
    assert GetLoggedInUser(d, authUserId) == GetLoggedInUser(db, authUserId);
    SendersStillKnown(db, d, MessagesOf(db, conversationId), m, user);
    assert IsMember(d, user.id, conversationId);
  }

  /** Senders known before stay known when only messages are added, and the
      caller is a known sender. */
  lemma SendersStillKnown(db: Db, d: Db, ms: seq<Message>, m: Message, caller: User)
    requires d.users == db.users
    requires ms == [] || SendersKnown(db, ms)
    requires caller in db.users && caller.id != "" && m.senderId == caller.id
    ensures SendersKnown(d, ms + [m])
  {
    var all := ms + [m];
    forall i | 0 <= i < |all| ensures GetUserById(d, all[i].senderId).Some? {
      if i < |ms| {
        assert all[i] == ms[i];
        assert GetUserById(db, ms[i].senderId).Some?;
      } else {
        assert all[i] == m;
      }
    }
  }

  /** Once a message is sent, the conversation list summarises it as that
      conversation's last message, with its displayed content and the
      sender's username. */
  lemma SentMessageIsLast(db: Db, authUserId: Option<Id>, conversationId: Id, kind: string, content: seq<string>, newId: Id, now: nat)
    requires FreshMessageId(db, newId) && newId != ""
    requires CreateMessage(db, authUserId, conversationId, kind, content, newId, now).out.Ok?
    ensures var s := CreateMessage(db, authUserId, conversationId, kind, content, newId, now);
      && GetLoggedInUser(db, authUserId).Some?
      && FindConversation(s.db, conversationId).Some?
      && GetLastMessageById(s.db, FindConversation(s.db, conversationId).value.lastMessageId)
           == Ok(Some(LastMessage(MessageContent(kind, content), GetLoggedInUser(db, authUserId).value.username)))
  {
    var s := CreateMessage(db, authUserId, conversationId, kind, content, newId, now);
    FindAppendedMessage(db, s.db, s.out.value);
    FindPointedConversation(db, s.db, conversationId, newId);
  }

  /** A message with a fresh id, once appended, is the one found by that id. */
  lemma FindAppendedMessage(db: Db, d: Db, m: Message)
    requires FreshMessageId(db, m.id) && d.messages == db.messages + [m]
    ensures FindMessage(d, m.id) == Some(m)
  {
    assert d.messages[|db.messages|] == m;
    forall i | 0 <= i < |db.messages| ensures d.messages[i].id != m.id {
      assert d.messages[i] == db.messages[i];
    }
    var k :| 0 <= k < |d.messages| && d.messages[k] == FindMessage(d, m.id).value;
  }

  /** After the pointer update of `createMessage`, the conversation is still
      found and names the new message as its last. */
  lemma FindPointedConversation(db: Db, d: Db, conversationId: Id, messageId: Id)
    requires FindConversation(db, conversationId).Some?
    requires |d.conversations| == |db.conversations|
    requires forall i :: 0 <= i < |db.conversations| && db.conversations[i].id == conversationId ==>
      d.conversations[i] == db.conversations[i].(lastMessageId := Some(messageId))
    requires forall i :: 0 <= i < |db.conversations| && db.conversations[i].id != conversationId ==>
      d.conversations[i] == db.conversations[i]
    ensures FindConversation(d, conversationId).Some?
    ensures FindConversation(d, conversationId).value.lastMessageId == Some(messageId)
  {
    var j :| 0 <= j < |db.conversations| && db.conversations[j] == FindConversation(db, conversationId).value;
    assert d.conversations[j].id == conversationId;
    var i :| 0 <= i < |d.conversations| && d.conversations[i] == FindConversation(d, conversationId).value;
  }

  /** The caller's own message never changes the caller's unseen count. */
  lemma OwnMessageLeavesUnseenCount(
    db: Db, authUserId: Option<Id>, conversationId: Id, kind: string, content: seq<string>, newId: Id, now: nat,
    reader: Membership)
    requires FreshMessageId(db, newId)
    requires CreateMessage(db, authUserId, conversationId, kind, content, newId, now).out.Ok?
    requires reader.lastSeenMessageId != Some(newId)
    ensures var s := CreateMessage(db, authUserId, conversationId, kind, content, newId, now);
      UnseenCount(s.db, conversationId, reader, authUserId.value) == UnseenCount(db, conversationId, reader, authUserId.value)
  {
    var s := CreateMessage(db, authUserId, conversationId, kind, content, newId, now);
    SameReadPointer(db, s.db, conversationId, s.out.value, reader);
    SendAppendsToHistory(db, authUserId, conversationId, kind, content, newId, now);
    var t := LastSeenTime(db, conversationId, reader);
    FilterSnoc(MessagesOf(db, conversationId), s.out.value, UnseenBy(t, authUserId.value));
  }

  /** Someone else's message, newer than what `reader` last saw, raises the
      reader's unseen count by exactly one. */
  lemma OtherMessageRaisesUnseenCount(
    db: Db, authUserId: Option<Id>, conversationId: Id, kind: string, content: seq<string>, newId: Id, now: nat,
    reader: Membership, readerId: Id)
    requires FreshMessageId(db, newId)
    requires CreateMessage(db, authUserId, conversationId, kind, content, newId, now).out.Ok?
    requires reader.lastSeenMessageId != Some(newId)
    requires readerId != authUserId.value
    requires now > LastSeenTime(db, conversationId, reader)
    ensures var s := CreateMessage(db, authUserId, conversationId, kind, content, newId, now);
      UnseenCount(s.db, conversationId, reader, readerId) == UnseenCount(db, conversationId, reader, readerId) + 1
  {
    var s := CreateMessage(db, authUserId, conversationId, kind, content, newId, now);
    SameReadPointer(db, s.db, conversationId, s.out.value, reader);
    SendAppendsToHistory(db, authUserId, conversationId, kind, content, newId, now);
    var t := LastSeenTime(db, conversationId, reader);
    FilterSnoc(MessagesOf(db, conversationId), s.out.value, UnseenBy(t, readerId));
  }

  /** Appending a message the read pointer does not name leaves the pointer's
      message, and so its time, where they were. */
  lemma SameReadPointer(db: Db, d: Db, conversationId: Id, m: Message, reader: Membership)
    requires d.messages == db.messages + [m]
    requires reader.lastSeenMessageId != Some(m.id)
    ensures LastSeenTime(d, conversationId, reader) == LastSeenTime(db, conversationId, reader)
  {
    if Present(reader.lastSeenMessageId) {
      FirstSnoc(db.messages, m, (x: Message) => x.id == reader.lastSeenMessageId.value && x.conversationId == conversationId);
    }
  }
}

=== FILE: friends.dfy ===
/** `findFriends` of client/src/data/friends.ts: the friendship rows of a
    user, from either side. */
module Friends {
  import opened Wrappers
  import opened Seqs
  import opened Store

  /** `requestAccepted`: the user accepted the request (rows with `userId`);
      `acceptedRequest`: the user's request was accepted (rows with `friendId`). */
  datatype FriendType = RequestAccepted | AcceptedRequest

  function Side(kind: FriendType, f: Friend): Id
  {
    match kind
    case RequestAccepted => f.userId
    case AcceptedRequest => f.friendId
  }

  function OnSide(kind: FriendType, id: Id): Friend -> bool
  {
    (f: Friend) => Side(kind, f) == id
  }

  /** `findFriends`: nothing for an empty id (the thrown error is caught),
      otherwise exactly the rows with `id` on the chosen side, in table order. */
  function FindFriends(db: Db, id: Id, kind: FriendType): (r: Option<seq<Friend>>)
    ensures r.None? <==> id == ""
    ensures r.Some? ==> forall i :: 0 <= i < |r.value| ==> r.value[i] in db.friends && Side(kind, r.value[i]) == id
    ensures r.Some? ==> forall i :: 0 <= i < |db.friends| && Side(kind, db.friends[i]) == id ==> db.friends[i] in r.value
    ensures r.Some? ==> multiset(r.value) <= multiset(db.friends)
  {
    if !Truthy(id) then None else Some(Filter(db.friends, OnSide(kind, id)))
  }

  /** Every friendship row is found from both of its ends: by the user who
      accepted it and by the user whose request was accepted. */
  lemma FriendshipSeenFromBothSides(db: Db, k: nat)
    requires k < |db.friends|
    requires db.friends[k].userId != "" && db.friends[k].friendId != ""
    ensures db.friends[k] in FindFriends(db, db.friends[k].userId, RequestAccepted).value
    ensures db.friends[k] in FindFriends(db, db.friends[k].friendId, AcceptedRequest).value
  {
    assert Side(RequestAccepted, db.friends[k]) == db.friends[k].userId;
    assert Side(AcceptedRequest, db.friends[k]) == db.friends[k].friendId;
  }
}

=== FILE: memberships.dfy ===
/** The conversation-member helpers of client/src/data/conversation.ts
    (`addConversationMember`, `getConversationMembers`,
    `getUniqueConversationMember`): the membership lookups every authorisation
    check of the application goes through. */
module Memberships {
  import opened Wrappers
  import opened Seqs
  import opened Store

  /** `user` has at least one membership row in `conversation`. */
  predicate IsMember(db: Db, user: Id, conversation: Id)
  {
    exists i :: 0 <= i < |db.memberships| && db.memberships[i].memberId == user && db.memberships[i].conversationId == conversation
  }

  datatype Lookup = ByMemberId | ByConversationId

  function LookupKey(field: Lookup, m: Membership): Id
  {
    match field
    case ByMemberId => m.memberId
    case ByConversationId => m.conversationId
  }

  function HasKey(field: Lookup, id: Id): Membership -> bool
  {
    (m: Membership) => LookupKey(field, m) == id
  }

  /** `getConversationMembers`: nothing for an empty id; otherwise exactly the
      rows whose member id (or conversation id) is `id`, in table order. */
  function GetConversationMembers(db: Db, id: Id, field: Lookup): (r: Option<seq<Membership>>)
    ensures r.None? <==> id == ""
    ensures r.Some? ==> forall i :: 0 <= i < |r.value| ==> r.value[i] in db.memberships && LookupKey(field, r.value[i]) == id
    ensures r.Some? ==> forall i :: 0 <= i < |db.memberships| && LookupKey(field, db.memberships[i]) == id ==> db.memberships[i] in r.value
    ensures r.Some? ==> multiset(r.value) <= multiset(db.memberships)
  {
    if !Truthy(id) then None else Some(Filter(db.memberships, HasKey(field, id)))
  }

  /** Looked up by a non-empty conversation id, the members are exactly the
      conversation's membership rows. */
  lemma MembersOfConversation(db: Db, conversationId: Id)
    requires conversationId != ""
    ensures GetConversationMembers(db, conversationId, ByConversationId) == Some(MembershipsOf(db, conversationId))
  {
    FilterCongruent(db.memberships, HasKey(ByConversationId, conversationId),
      (m: Membership) => m.conversationId == conversationId);
  }

  /** The `findFirst` predicate of `getUniqueConversationMember`. */
  function MembershipOf(memberId: Id, conversationId: Option<Id>): Membership -> bool
  {
    if Present(conversationId) then (m: Membership) => m.memberId == memberId && m.conversationId == conversationId.value
    else (m: Membership) => m.memberId == memberId
  }

  /** `getUniqueConversationMember`: nothing for an empty member id; otherwise
      the first membership of that member, in the given conversation when a
      (truthy) conversation id is supplied. */
  function GetUniqueConversationMember(db: Db, memberId: Id, conversationId: Option<Id>): (r: Option<Membership>)
    ensures r.Some? ==> r.value in db.memberships && r.value.memberId == memberId && memberId != ""
    ensures r.Some? && Present(conversationId) ==> r.value.conversationId == conversationId.value
    ensures Present(conversationId) ==> (r.Some? <==> memberId != "" && IsMember(db, memberId, conversationId.value))
    ensures !Present(conversationId) ==>
      (r.Some? <==> memberId != "" && exists i :: 0 <= i < |db.memberships| && db.memberships[i].memberId == memberId)
  {
    if !Truthy(memberId) then None else First(db.memberships, MembershipOf(memberId, conversationId))
  }

  /** A membership id the store has not used. */
  predicate FreshMembershipId(db: Db, id: Id)
  {
    forall i :: 0 <= i < |db.memberships| ==> db.memberships[i].id != id
  }

  /** `addConversationMember`: appends a membership of `userId` in
      `conversationId` with no read pointer yet. */
  function AddConversationMember(db: Db, userId: Id, conversationId: Id, newId: Id): (r: Db)
    requires FreshMembershipId(db, newId)
    ensures r == db.(memberships := r.memberships)
    ensures IsMember(r, userId, conversationId)
    ensures forall u, c :: IsMember(db, u, c) ==> IsMember(r, u, c)
    ensures |r.memberships| == |db.memberships| + 1 && r.memberships[..|db.memberships|] == db.memberships
    // the new last row: the store's id, that user, that conversation, no read pointer
    ensures r.memberships[|db.memberships|] == Membership(newId, userId, conversationId, None)
    ensures WellFormed(db) ==> WellFormed(r)
  {
    var row := Membership(newId, userId, conversationId, None);
    var r := db.(memberships := db.memberships + [row]);
    assert r.memberships[|db.memberships|] == row;
    assert WellFormed(db) ==> WellFormed(r) by {
      if WellFormed(db) {
        DistinctSnoc(db.memberships, row, MembershipKey);
      }
    }
    assert forall u, c :: IsMember(db, u, c) ==> IsMember(r, u, c) by {
      forall u, c | IsMember(db, u, c) ensures IsMember(r, u, c) {
        var i :| 0 <= i < |db.memberships| && db.memberships[i].memberId == u && db.memberships[i].conversationId == c;
        assert r.memberships[i] == db.memberships[i];
      }
    }
    r
  }
}

=== FILE: messages.dfy ===
/** The message pipeline of client/src/data/messages.ts: the
    membership-checked append with its `lastMessageId` update, the
    newest-first history, and the last-message summary. */
module Messages {
  import opened Wrappers
  import opened Seqs
  import opened Store
  import opened Users
  import opened Memberships

  /** A message id the store has not used (ids are generated by the store). */
  predicate FreshMessageId(db: Db, id: Id)
  {
    forall i :: 0 <= i < |db.messages| ==> db.messages[i].id != id
  }

  /** `db.conversation.update({ where: { id }, data: { lastMessageId } })` on
      the conversation table. */
  function PointLastMessage(cs: seq<Conversation>, id: Id, messageId: Id): (r: seq<Conversation>)
    ensures |r| == |cs|
    ensures forall i :: 0 <= i < |cs| && cs[i].id == id ==> r[i] == cs[i].(lastMessageId := Some(messageId))
    ensures forall i :: 0 <= i < |cs| && cs[i].id != id ==> r[i] == cs[i]
    ensures DistinctBy(cs, ConversationKey) ==> DistinctBy(r, ConversationKey)
  {
    var r := seq(|cs|, i requires 0 <= i < |cs| => if cs[i].id == id then cs[i].(lastMessageId := Some(messageId)) else cs[i]);
    assert forall i :: 0 <= i < |cs| ==> ConversationKey(r[i]) == ConversationKey(cs[i]);
    r
  }

  /** `createMessage`. The caller is `authUserId`; `newId` and `now` are the id
      and timestamp the store assigns. The message is written first and the
      conversation's pointer second, so a missing conversation row fails the
      second write after the first has happened. */
  function CreateMessage(db: Db, authUserId: Option<Id>, conversationId: Id, kind: string, content: seq<string>, newId: Id, now: nat)
    : (r: Step<Result<Message, Error>>)
    requires FreshMessageId(db, newId)
    ensures GetLoggedInUser(db, authUserId).None? ==> r == Step(Err(NotLoggedIn), db)
    // a caller with no membership in the conversation is refused and nothing is written
    ensures && GetLoggedInUser(db, authUserId).Some? && conversationId != ""
            && !IsMember(db, authUserId.value, conversationId)
            ==> r == Step(Err(NotAMember), db)
    // a member's message is accepted exactly when its conversation exists
    ensures && GetLoggedInUser(db, authUserId).Some? && conversationId != ""
            && IsMember(db, authUserId.value, conversationId)
            ==> (r.out.Ok? <==> FindConversation(db, conversationId).Some?)
    ensures r.out.Ok? ==>
      var m := r.out.value;
      && authUserId.Some? && (conversationId != "" ==> IsMember(db, authUserId.value, conversationId))
      && FindConversation(db, conversationId).Some?
      && m == Message(newId, conversationId, authUserId.value, kind, content, now)
      && r.db.messages == db.messages + [m]
      && r.db.users == db.users && r.db.memberships == db.memberships
      && r.db.requests == db.requests && r.db.friends == db.friends
      // the conversation now points at the new message; no other conversation changes
      && |r.db.conversations| == |db.conversations|
      && (forall i :: 0 <= i < |db.conversations| && db.conversations[i].id == conversationId ==>
            r.db.conversations[i] == db.conversations[i].(lastMessageId := Some(m.id)))
      && (forall i :: 0 <= i < |db.conversations| && db.conversations[i].id != conversationId ==>
            r.db.conversations[i] == db.conversations[i])
    ensures r.out.Err? && r.db != db ==>
      r.out.error == RecordNotFound && FindConversation(db, conversationId).None?
    // the failed pointer update leaves the message written and nothing else changed
    ensures r.out == Err(RecordNotFound) ==>
      && authUserId.Some?
      && r.db == db.(messages := db.messages + [Message(newId, conversationId, authUserId.value, kind, content, now)])
    ensures WellFormed(db) ==> WellFormed(r.db)
  {
    var user := GetLoggedInUser(db, authUserId);
    if user.None? then Step(Err(NotLoggedIn), db)
    else
      var membership := GetUniqueConversationMember(db, user.value.id, Some(conversationId));
      if membership.None? then Step(Err(NotAMember), db)
      else
        var m := Message(newId, conversationId, membership.value.memberId, kind, content, now);
        var written := db.(messages := db.messages + [m]);
        assert WellFormed(db) ==> WellFormed(written) by {
          if WellFormed(db) {
            DistinctSnoc(db.messages, m, MessageKey);
          }
        }
        if FindConversation(db, conversationId).None? then Step(Err(RecordNotFound), written)
        else
          var r := written.(conversations := PointLastMessage(db.conversations, conversationId, m.id));
          Step(Ok(m), r)
  }

  /** One entry of the `getMessages` result. */
  datatype MessageView = MessageView(message: Message, senderImage: string, senderName: string, isCurrentUser: bool)

  function MessagesIn(vs: seq<MessageView>): (r: seq<Message>)
    ensures |r| == |vs| && forall i :: 0 <= i < |vs| ==> r[i] == vs[i].message
  {
    seq(|vs|, i requires 0 <= i < |vs| => vs[i].message)
  }

  /** Every message of `ms` names a sender that `getUserById` finds. */
  predicate SendersKnown(db: Db, ms: seq<Message>)
  {
    forall i :: 0 <= i < |ms| ==> GetUserById(db, ms[i].senderId).Some?
  }

  /** The entry shows its sender's stored image and username. */
  predicate ShowsSender(db: Db, v: MessageView)
  {
    var sender := GetUserById(db, v.message.senderId);
    sender.Some? && v.senderImage == sender.value.imageUrl && v.senderName == sender.value.username
  }

  /** The per-message step of `getMessages`: the sender lookup, then the
      caller's membership check (made once per message). */
  function ViewOf(db: Db, caller: User, conversationId: Id, m: Message): (r: Result<MessageView, Error>)
    ensures r.Ok? <==> GetUserById(db, m.senderId).Some? && GetUniqueConversationMember(db, caller.id, Some(conversationId)).Some?
    ensures r.Ok? ==> r.value.message == m && (r.value.isCurrentUser <==> m.senderId == caller.id)
    ensures r.Ok? ==> ShowsSender(db, r.value)
  {
    var sender := GetUserById(db, m.senderId);
    if sender.None? then Err(SenderNotFound)
    else if GetUniqueConversationMember(db, caller.id, Some(conversationId)).None? then Err(NotAMember)
    else Ok(MessageView(m, sender.value.imageUrl, sender.value.username, sender.value.id == caller.id))
  }

  /** `Promise.all` over the messages: the views in order, or the first failure. */
  function ViewAll(db: Db, caller: User, conversationId: Id, ms: seq<Message>): (r: Result<seq<MessageView>, Error>)
    ensures r.Ok? <==> forall i :: 0 <= i < |ms| ==> ViewOf(db, caller, conversationId, ms[i]).Ok?
    ensures r.Ok? ==> MessagesIn(r.value) == ms
    ensures r.Ok? ==> forall i :: 0 <= i < |r.value| ==> (r.value[i].isCurrentUser <==> r.value[i].message.senderId == caller.id)
    ensures r.Ok? ==> forall i :: 0 <= i < |r.value| ==> ShowsSender(db, r.value[i])
  {
    var r := AllOf(ms, (m: Message) => ViewOf(db, caller, conversationId, m));
    assert r.Ok? ==> MessagesIn(r.value) == ms;
    r
  }

  /** `getMessages`: the conversation's messages, newest first, each with its
      sender's image and name and whether the caller sent it. The membership
      check runs once per message, so a non-member reading an empty
      conversation gets an empty list rather than an error. */
  function GetMessages(db: Db, authUserId: Option<Id>, conversationId: Id): (r: Result<seq<MessageView>, Error>)
    ensures GetLoggedInUser(db, authUserId).None? ==> r == Err(NotLoggedIn)
    ensures GetLoggedInUser(db, authUserId).Some? && conversationId != "" ==>
      (r.Ok? <==> MessagesOf(db, conversationId) == []
                  || (IsMember(db, authUserId.value, conversationId) && SendersKnown(db, MessagesOf(db, conversationId))))
    ensures GetLoggedInUser(db, authUserId).Some? && MessagesOf(db, conversationId) == [] ==> r == Ok([])
    // exactly the conversation's messages, each once, newest first
    ensures r.Ok? ==>
      && multiset(MessagesIn(r.value)) == multiset(MessagesOf(db, conversationId))
      && SortedDesc(MessagesIn(r.value), MessageTime)
      && (forall i :: 0 <= i < |r.value| ==> (r.value[i].isCurrentUser <==> r.value[i].message.senderId == authUserId.value))
      // each entry carries its sender's stored image and username
      && forall i :: 0 <= i < |r.value| ==> ShowsSender(db, r.value[i])
  {
    var user := GetLoggedInUser(db, authUserId);
    if user.None? then Err(NotLoggedIn)
    else
      var all := MessagesOf(db, conversationId);
      var ms := SortDesc(all, MessageTime);
      SortDescSameRows(all, MessageTime);
      ViewAllSucceeds(db, user.value, conversationId, all, ms);
      ViewAll(db, user.value, conversationId, ms)
  }

  /** `Promise.all` succeeds over a reordering `ms` of the conversation's
      messages `all` iff there are none, or the caller is a member and every
      sender is known. */
  lemma ViewAllSucceeds(db: Db, caller: User, conversationId: Id, all: seq<Message>, ms: seq<Message>)
    requires caller.id != ""
    requires |ms| == |all|
    requires forall i :: 0 <= i < |all| ==> all[i] in ms
    requires forall i :: 0 <= i < |ms| ==> ms[i] in all
    ensures conversationId != "" ==> (ViewAll(db, caller, conversationId, ms).Ok? <==>
      all == [] || (IsMember(db, caller.id, conversationId) && SendersKnown(db, all)))
  {
    var r := ViewAll(db, caller, conversationId, ms);
    var member := GetUniqueConversationMember(db, caller.id, Some(conversationId)).Some?;
    if conversationId != "" && all != [] {
      assert member <==> IsMember(db, caller.id, conversationId);
      if r.Ok? {
        assert ViewOf(db, caller, conversationId, ms[0]).Ok?;
        forall i | 0 <= i < |all| ensures GetUserById(db, all[i].senderId).Some? {
          var j :| 0 <= j < |ms| && ms[j] == all[i];
          assert ViewOf(db, caller, conversationId, ms[j]).Ok?;
        }
      }
      if member && SendersKnown(db, all) {
        forall i | 0 <= i < |ms| ensures ViewOf(db, caller, conversationId, ms[i]).Ok? {
          var j :| 0 <= j < |all| && all[j] == ms[i];
          assert GetUserById(db, all[j].senderId).Some?;
        }
      }
    }
  }

  /** What the conversation list shows of a message: its content parts, or a
      placeholder for any type other than text. */
  datatype Display = Parts(parts: seq<string>) | Placeholder(text: string)

  const NonText := "[Non-text]"

  /** `getMessageContent`: the type-to-display dispatch. */
  function MessageContent(kind: string, content: seq<string>): (r: Display)
    ensures r.Parts? <==> kind == "text"
    ensures r.Parts? ==> r.parts == content
    ensures r.Placeholder? ==> r.text == NonText
  {
    if kind == "text" then Parts(content) else Placeholder(NonText)
  }

  datatype LastMessage = LastMessage(content: Display, sender: string)

  /** `getLastMessageById`: nothing, without error, for an absent or empty id;
      an error when the message or its sender is missing; otherwise the
      message's displayed content and its sender's username. */
  function GetLastMessageById(db: Db, messageId: Option<Id>): (r: Result<Option<LastMessage>, Error>)
    ensures !Present(messageId) ==> r == Ok(None)
    ensures Present(messageId) && FindMessage(db, messageId.value).None? ==> r == Err(MessageNotFound)
    ensures Present(messageId) && FindMessage(db, messageId.value).Some? ==>
      var m := FindMessage(db, messageId.value).value;
      && (GetUserById(db, m.senderId).None? ==> r == Err(SenderNotFound))
      && (GetUserById(db, m.senderId).Some? ==>
            r == Ok(Some(LastMessage(MessageContent(m.kind, m.content), GetUserById(db, m.senderId).value.username))))
  {
    if !Present(messageId) then Ok(None)
    else
      var m := FindMessage(db, messageId.value);
      if m.None? then Err(MessageNotFound)
      else
        var sender := GetUserById(db, m.value.senderId);
        if sender.None? then Err(SenderNotFound)
        else Ok(Some(LastMessage(MessageContent(m.value.kind, m.value.content), sender.value.username)))
  }
}

=== FILE: navigation.dfy ===
/** The pure navigation hooks: client/src/hooks/useNavigation.tsx (which tab
    is active for a pathname) and client/src/hooks/useConversation.tsx (which
    conversation a route names). */
module Navigation {
  import opened Wrappers

  datatype NavPath = NavPath(name: string, href: string, active: bool)

  /** JavaScript's `startsWith`. */
  predicate StartsWith(s: string, prefix: string)
  {
    |prefix| <= |s| && s[..|prefix|] == prefix
  }

  const ConversationsHref := "/conversations"
  const FriendsHref := "/friends"

  /** `useNavigation`: the two tabs, Conversations then Friends. Conversations
      is active on every path under it, Friends only on its own path. */
  function Paths(pathname: string): (r: seq<NavPath>)
    ensures |r| == 2
    ensures r[0].name == "Conversations" && r[0].href == ConversationsHref
    ensures r[1].name == "Friends" && r[1].href == FriendsHref
    ensures r[0].active <==> StartsWith(pathname, ConversationsHref)
    ensures r[1].active <==> pathname == FriendsHref
    // an active tab's link is a prefix of the current path, and at most one tab is active
    ensures forall i :: 0 <= i < |r| && r[i].active ==> StartsWith(pathname, r[i].href)
    ensures !(r[0].active && r[1].active)
  {
    [ NavPath("Conversations", ConversationsHref, StartsWith(pathname, ConversationsHref)),
      NavPath("Friends", FriendsHref, pathname == FriendsHref) ]
  }

  /** The `conversationId` route parameter: missing, one string, or (for a
      catch-all segment) an array of strings. */
  datatype RouteParam = Missing | Single(value: string) | Several(values: seq<string>)

  /** `useConversation`'s `conversationId`: the first element of an array,
      the string itself otherwise; nothing for a missing parameter or an
      empty array (where `[0]` is `undefined`). */
  function ConversationIdOf(p: RouteParam): (r: Option<string>)
    ensures p.Single? ==> r == Some(p.value)
    ensures p.Several? && p.values != [] ==> r == Some(p.values[0])
    ensures r.None? <==> p.Missing? || (p.Several? && p.values == [])
  {
    match p
    case Missing => None
    case Single(s) => Some(s)
    case Several(xs) => if xs == [] then None else Some(xs[0])
  }

  /** `isActive`: `!!conversationId`. */
  function IsActive(p: RouteParam): (b: bool)
    ensures b <==> ConversationIdOf(p).Some? && ConversationIdOf(p).value != ""
    ensures p.Missing? || (p.Several? && p.values == []) ==> !b
    ensures p.Single? ==> (b <==> p.value != "")
  {
    var id := ConversationIdOf(p);
    id.Some? && id.value != ""
  }
}

=== FILE: notifications.dfy ===
/** The received-request endpoints of
    server/src/controllers/notificationController.ts. */
module Notifications {
  import opened Wrappers
  import opened Seqs
  import opened Store

  /** One entry of `getRequests`: a request with the user who sent it. */
  datatype RequestWithSender = RequestWithSender(sender: User, request: Request)

  function ReceivedBy(id: Id): Request -> bool
  {
    (q: Request) => q.receiverId == id
  }

  function RequestsIn(xs: seq<RequestWithSender>): (r: seq<Request>)
    ensures |r| == |xs| && forall i :: 0 <= i < |xs| ==> r[i] == xs[i].request
  {
    seq(|xs|, i requires 0 <= i < |xs| => xs[i].request)
  }

  /** The per-request step: the sender's row, or the failure that rejects
      the whole `Promise.all`. */
  function WithSender(db: Db, q: Request): (r: Result<RequestWithSender, Error>)
    ensures r.Ok? <==> FindUser(db, q.senderId).Some?
    ensures r.Ok? ==> r.value.request == q && r.value.sender in db.users && r.value.sender.id == q.senderId
  {
    var sender := FindUser(db, q.senderId);
    if sender.None? then Err(SenderNotFound) else Ok(RequestWithSender(sender.value, q))
  }

  /** `Promise.all` over the requests: each with its sender, in order, or the
      first failure. */
  function WithSenders(db: Db, qs: seq<Request>): (r: Result<seq<RequestWithSender>, Error>)
    ensures r.Ok? <==> forall i :: 0 <= i < |qs| ==> FindUser(db, qs[i].senderId).Some?
    ensures r.Ok? ==> RequestsIn(r.value) == qs
    ensures r.Ok? ==> forall i :: 0 <= i < |r.value| ==>
      r.value[i].sender in db.users && r.value[i].sender.id == r.value[i].request.senderId
  {
    var r := AllOf(qs, (q: Request) => WithSender(db, q));
    assert r.Ok? ==> RequestsIn(r.value) == qs;
    r
  }

  /** `getRequests`: the requests received by `id`, newest first, each paired
      with its sender; one missing sender fails the whole call. */
  function GetRequests(db: Db, id: Id): (r: Result<seq<RequestWithSender>, Error>)
    ensures r.Ok? <==> forall i :: 0 <= i < |db.requests| && db.requests[i].receiverId == id ==>
      FindUser(db, db.requests[i].senderId).Some?
    ensures r.Ok? ==>
      && multiset(RequestsIn(r.value)) == multiset(Filter(db.requests, ReceivedBy(id)))
      && SortedDesc(RequestsIn(r.value), RequestTime)
      && forall i :: 0 <= i < |r.value| ==>
           r.value[i].request.receiverId == id && r.value[i].sender in db.users
           && r.value[i].sender.id == r.value[i].request.senderId
  {
    var received := Filter(db.requests, ReceivedBy(id));
    var sorted := SortDesc(received, RequestTime);
    SortDescSameRows(received, RequestTime);
    SendersFound(db, id, sorted);
    WithSenders(db, sorted)
  }

  /** The sender lookups over any reordering of the received requests succeed
      iff every received request's sender exists. */
  lemma SendersFound(db: Db, id: Id, sorted: seq<Request>)
    requires forall i :: 0 <= i < |db.requests| && db.requests[i].receiverId == id ==> db.requests[i] in sorted
    requires forall i :: 0 <= i < |sorted| ==> sorted[i] in db.requests && sorted[i].receiverId == id
    ensures (forall i :: 0 <= i < |sorted| ==> FindUser(db, sorted[i].senderId).Some?) <==>
      forall i :: 0 <= i < |db.requests| && db.requests[i].receiverId == id ==> FindUser(db, db.requests[i].senderId).Some?
  {
    if forall i :: 0 <= i < |sorted| ==> FindUser(db, sorted[i].senderId).Some? {
      forall i | 0 <= i < |db.requests| && db.requests[i].receiverId == id
        ensures FindUser(db, db.requests[i].senderId).Some?
      {
        var j :| 0 <= j < |sorted| && sorted[j] == db.requests[i];
      }
    }
    if forall i :: 0 <= i < |db.requests| && db.requests[i].receiverId == id ==> FindUser(db, db.requests[i].senderId).Some? {
      forall i | 0 <= i < |sorted| ensures FindUser(db, sorted[i].senderId).Some? {
        var j :| 0 <= j < |db.requests| && db.requests[j] == sorted[i];
      }
    }
  }

  /** A reference definition of the count: the positions of the request
      table holding a request to `id`. */
  function ReceivedPositions(db: Db, id: Id): set<nat>
  {
    set i: nat | i < |db.requests| && db.requests[i].receiverId == id
  }

  /** `getRequestsCount`: how many requests `id` has received. */
  function GetRequestsCount(db: Db, id: Id): (n: nat)
    ensures n == |ReceivedPositions(db, id)|
    ensures n <= |db.requests|
    ensures n == 0 <==> forall i :: 0 <= i < |db.requests| ==> db.requests[i].receiverId != id
  {
    var received := Filter(db.requests, ReceivedBy(id));
    assert received != [] ==> received[0] in db.requests;
    CountIsPositions(db.requests, ReceivedBy(id));
    assert Positions(db.requests, ReceivedBy(id)) == ReceivedPositions(db, id);
    |received|
  }

  /** The count the badge shows is the length of the list `getRequests`
      returns. */
  lemma CountMatchesList(db: Db, id: Id)
    requires GetRequests(db, id).Ok?
    ensures |GetRequests(db, id).value| == GetRequestsCount(db, id)
  {
    var xs := GetRequests(db, id).value;
    assert |multiset(RequestsIn(xs))| == |multiset(Filter(db.requests, ReceivedBy(id)))|;
  }
}

=== FILE: requests.dfy ===
/** `requestValidator` of client/src/data/requests.ts: the checks a friend
    request must pass before it is written. The function only reads the store. */
module Requests {
  import opened Wrappers
  import opened Store
  import opened Users
  import opened Schemas

  /** Some request row goes from `sender` to `receiver`. */
  predicate RequestBetween(db: Db, sender: Id, receiver: Id)
  {
    exists i :: 0 <= i < |db.requests| && db.requests[i].senderId == sender && db.requests[i].receiverId == receiver
  }

  /** `requestValidator`: login, form, not to oneself, receiver exists, not
      already sent, not already received, in that order; the first failing
      check decides the error. The receiver is the first user with the
      entered email. */
  function RequestValidator(db: Db, authUserId: Option<Id>, form: AddFriendForm, isEmail: string -> bool): (r: Result<(), Error>)
    ensures GetLoggedInUser(db, authUserId).None? ==> r == Err(NotLoggedIn)
    ensures GetLoggedInUser(db, authUserId).Some? ==>
      var caller := GetLoggedInUser(db, authUserId).value;
      var receiver := GetUserByEmail(db, form.email);
      && (ParseAddFriendForm(form, isEmail).Err? ==> r == Err(InvalidData))
      && (ParseAddFriendForm(form, isEmail).Ok? ==>
            && (caller.email == form.email ==> r == Err(SelfRequest))
            && (caller.email != form.email && receiver.None? ==> r == Err(ReceiverNotFound))
            && (caller.email != form.email && receiver.Some? ==>
                  && (RequestBetween(db, caller.id, receiver.value.id) ==> r == Err(RequestAlreadySent))
                  && (!RequestBetween(db, caller.id, receiver.value.id) && RequestBetween(db, receiver.value.id, caller.id) ==> r == Err(RequestAlreadyReceived))))
    // accepted exactly when every check passes
    ensures r.Ok? <==>
      && GetLoggedInUser(db, authUserId).Some?
      && form.email != "" && isEmail(form.email)
      && GetLoggedInUser(db, authUserId).value.email != form.email
      && (exists k :: 0 <= k < |db.users| && db.users[k].email == form.email)
      && !RequestBetween(db, GetLoggedInUser(db, authUserId).value.id, GetUserByEmail(db, form.email).value.id)
      && !RequestBetween(db, GetUserByEmail(db, form.email).value.id, GetLoggedInUser(db, authUserId).value.id)
  {
    var caller := GetLoggedInUser(db, authUserId);
    if caller.None? then Err(NotLoggedIn)
    else if ParseAddFriendForm(form, isEmail).Err? then Err(InvalidData)
    else if caller.value.email == form.email then Err(SelfRequest)
    else
      var receiver := GetUserByEmail(db, form.email);
      if receiver.None? then Err(ReceiverNotFound)
      else if RequestBetween(db, caller.value.id, receiver.value.id) then Err(RequestAlreadySent)
      else if RequestBetween(db, receiver.value.id, caller.value.id) then Err(RequestAlreadyReceived)
      else Ok(())
  }

  /** With unique user ids, an accepted request never goes from a user to
      themselves: the email check also rules out the caller's own id. */
  lemma AcceptedRequestIsToAnother(db: Db, authUserId: Option<Id>, form: AddFriendForm, isEmail: string -> bool)
    requires WellFormed(db)
    requires RequestValidator(db, authUserId, form, isEmail).Ok?
    ensures GetUserByEmail(db, form.email).value.id != authUserId.value
  {
    var caller := GetLoggedInUser(db, authUserId).value;
    var receiver := GetUserByEmail(db, form.email).value;
    var i :| 0 <= i < |db.users| && db.users[i] == caller;
    var j :| 0 <= j < |db.users| && db.users[j] == receiver;
    if i < j {
      assert UserKey(db.users[i]) != UserKey(db.users[j]);
    } else if j < i {
      assert UserKey(db.users[j]) != UserKey(db.users[i]);
    }
  }
}

=== FILE: rooms.dfy ===
/** The socket room registry that server/src/sockets/messageHandler.ts
    drives: a `joinRoom` event adds the calling socket to the named room, and
    a room-addressed emit reaches the connected sockets in that room. */
module Rooms {
  type SocketId = string
  type RoomId = string

  /** Which sockets are in which room. A room nobody joined has no entry. */
  type RoomMap = map<RoomId, set<SocketId>>

  function Members(rooms: RoomMap, room: RoomId): set<SocketId>
  {
    if room in rooms then rooms[room] else {}
  }

  /** `socket.join(room)` on a `joinRoom` event. Any room id is accepted:
      nothing checks that the socket's user belongs to the conversation. */
  function JoinRoom(rooms: RoomMap, socket: SocketId, room: RoomId): (r: RoomMap)
    ensures Members(r, room) == Members(rooms, room) + {socket}
    ensures forall q :: q != room ==> Members(r, q) == Members(rooms, q)
    ensures r.Keys == rooms.Keys + {room}
  {
    rooms[room := Members(rooms, room) + {socket}]
  }

  /** Room membership is a set, so joining again changes nothing. */
  lemma JoinRoomIdempotent(rooms: RoomMap, socket: SocketId, room: RoomId)
    ensures JoinRoom(JoinRoom(rooms, socket, room), socket, room) == JoinRoom(rooms, socket, room)
  {
    var once := JoinRoom(rooms, socket, room);
    assert Members(once, room) + {socket} == Members(once, room);
  }

  /** A `joinRoom` event: the socket that sent it and the room it names. */
  datatype Join = Join(socket: SocketId, room: RoomId)

  /** The registry after a sequence of `joinRoom` events, in arrival order. */
  function JoinAll(rooms: RoomMap, joins: seq<Join>): RoomMap
    decreases |joins|
  {
    if joins == [] then rooms
    else JoinAll(JoinRoom(rooms, joins[0].socket, joins[0].room), joins[1..])
  }

  /** Starting from no rooms, a socket is in a room exactly when it sent a
      `joinRoom` for it. */
  lemma {:induction false} InRoomIffJoined(rooms: RoomMap, joins: seq<Join>, socket: SocketId, room: RoomId)
    ensures socket in Members(JoinAll(rooms, joins), room) <==>
      socket in Members(rooms, room) || exists i :: 0 <= i < |joins| && joins[i] == Join(socket, room)
    decreases |joins|
  {
    if joins != [] {
      var next := JoinRoom(rooms, joins[0].socket, joins[0].room);
      InRoomIffJoined(next, joins[1..], socket, room);
      if exists i :: 0 <= i < |joins[1..]| && joins[1..][i] == Join(socket, room) {
        var i :| 0 <= i < |joins[1..]| && joins[1..][i] == Join(socket, room);
        assert joins[i + 1] == Join(socket, room);
      }
      if exists i :: 0 <= i < |joins| && joins[i] == Join(socket, room) {
        var i :| 0 <= i < |joins| && joins[i] == Join(socket, room);
        if i > 0 {
          assert joins[1..][i - 1] == Join(socket, room);
        }
      }
    }
  }

  /** Where an emit is addressed: one room (`io.sockets.to(room)`) or every
      connected socket (`io.sockets.emit`). */
  datatype Target = Room(room: RoomId) | Everyone

  /** The sockets an emit reaches among the `connected` ones. */
  function Recipients(rooms: RoomMap, connected: set<SocketId>, target: Target): (r: set<SocketId>)
    ensures r <= connected
    ensures target.Everyone? ==> r == connected
    ensures target.Room? ==> forall s :: s in r <==> s in connected && s in Members(rooms, target.room)
  {
    match target
    case Everyone => connected
    case Room(room) => connected * Members(rooms, room)
  }
}

=== FILE: schemas.dfy ===
/** The zod form schemas of client/src/schemas/zod-schemas.ts, as parsers that
    either return the form unchanged or the list of issue messages. Every check
    of an object schema runs, so one parse can report several issues. The email
    format check is an input predicate `isEmail`. */
module Schemas {
  import opened Wrappers

  const EmptyField := "This field can't be empty"
  const BadEmail := "Please enter a valid email"
  const NoMembers := "You must select at least 1 friend"

  datatype AddFriendForm = AddFriendForm(email: string)
  datatype ChatMessageForm = ChatMessageForm(content: string)
  datatype CreateGroupForm = CreateGroupForm(name: string, members: seq<string>)

  /** `addFriendFormSchema.safeParse`: the email is non-empty and well formed. */
  function ParseAddFriendForm(f: AddFriendForm, isEmail: string -> bool): (r: Result<AddFriendForm, seq<string>>)
    ensures r.Ok? <==> |f.email| >= 1 && isEmail(f.email)
    ensures r.Ok? ==> r.value == f
    ensures r.Err? ==>
      && r.error != []
      && (EmptyField in r.error <==> f.email == "")
      && (BadEmail in r.error <==> !isEmail(f.email))
  {
    var issues := (if |f.email| < 1 then [EmptyField] else []) + (if !isEmail(f.email) then [BadEmail] else []);
    if issues == [] then Ok(f) else Err(issues)
  }

  /** `chatMessageSchema.safeParse`: the content has at least one character. */
  function ParseChatMessage(f: ChatMessageForm): (r: Result<ChatMessageForm, seq<string>>)
    ensures r.Ok? <==> f.content != ""
    ensures r.Ok? ==> r.value == f
    ensures r.Err? ==> r.error == [EmptyField]
  {
    if |f.content| < 1 then Err([EmptyField]) else Ok(f)
  }

  /** `createGroupFormSchema.safeParse`: a non-empty name and at least one
      selected member (the member ids themselves are not checked). */
  function ParseCreateGroupForm(f: CreateGroupForm): (r: Result<CreateGroupForm, seq<string>>)
    ensures r.Ok? <==> f.name != "" && f.members != []
    ensures r.Ok? ==> r.value == f
    ensures r.Err? ==>
      && (EmptyField in r.error <==> f.name == "")
      && (NoMembers in r.error <==> f.members == [])
  {
    var issues := (if |f.name| < 1 then [EmptyField] else []) + (if |f.members| < 1 then [NoMembers] else []);
    if issues == [] then Ok(f) else Err(issues)
  }
}

=== FILE: seqs.dfy ===
/** Sequence combinators standing for the store's table scans: `findMany` with a
    `where` filter, `findFirst`, `count` and `orderBy: { createdAt: "desc" }`. */
module Seqs {
  import opened Wrappers

  /** The rows of `xs` that satisfy `p`, in table order. */
  function Filter<T>(xs: seq<T>, p: T -> bool): (r: seq<T>)
    ensures |r| <= |xs|
    ensures forall i :: 0 <= i < |r| ==> r[i] in xs && p(r[i])
    ensures forall i :: 0 <= i < |xs| && p(xs[i]) ==> xs[i] in r
    ensures multiset(r) <= multiset(xs)
  {
    if xs == [] then []
    else
      assert xs == [xs[0]] + xs[1..];
      (if p(xs[0]) then [xs[0]] else []) + Filter(xs[1..], p)
  }

  /** Number of rows of `xs` that satisfy `p` (the store's `count`). */
  function Count<T>(xs: seq<T>, p: T -> bool): nat
  {
    |Filter(xs, p)|
  }

  /** The positions of `xs` whose row satisfies `p`. */
  function Positions<T>(xs: seq<T>, p: T -> bool): set<nat>
  {
    set i: nat | i < |xs| && p(xs[i])
  }

  /** Counting a filter counts the positions it keeps. */
  lemma {:induction false} CountIsPositions<T>(xs: seq<T>, p: T -> bool)
    ensures Count(xs, p) == |Positions(xs, p)|
  {
    if xs != [] {
      var n := |xs| - 1;
      var init := xs[..n];
      assert xs == init + [xs[n]];
      CountIsPositions(init, p);
      FilterSnoc(init, xs[n], p);
      PositionsSnoc(init, xs[n], p);
      var last: set<nat> := if p(xs[n]) then {n} else {};
      assert Positions(init, p) !! last;
    }
  }

  lemma PositionsSnoc<T>(init: seq<T>, x: T, p: T -> bool)
    ensures Positions(init + [x], p) == Positions(init, p) + (if p(x) then {|init|} else {})
  {
    var xs := init + [x];
    var n := |init|;
    var last: set<nat> := if p(x) then {n} else {};
    forall i: nat | i in Positions(xs, p) ensures i in Positions(init, p) + last {
      if i < n {
        assert init[i] == xs[i];
      }
    }
    forall i: nat | i in Positions(init, p) ensures i in Positions(xs, p) {
      assert init[i] == xs[i];
    }
  }

  lemma {:induction false} FilterAppend<T>(a: seq<T>, b: seq<T>, p: T -> bool)
    ensures Filter(a + b, p) == Filter(a, p) + Filter(b, p)
  {
    if a == [] {
      assert a + b == b;
    } else {
      assert (a + b)[0] == a[0];
      assert (a + b)[1..] == a[1..] + b;
      FilterAppend(a[1..], b, p);
    }
  }

  /** Appending one row changes a filtered scan by at most that row, at the end. */
  lemma FilterSnoc<T>(xs: seq<T>, x: T, p: T -> bool)
    ensures Filter(xs + [x], p) == Filter(xs, p) + (if p(x) then [x] else [])
  {
    FilterAppend(xs, [x], p);
    FilterSingleton(x, p);
  }

  lemma FilterSingleton<T>(x: T, p: T -> bool)
    ensures Filter([x], p) == if p(x) then [x] else []
  {
    assert Filter([x], p) == (if p(x) then [x] else []) + Filter([x][1..], p);
  }

  /** A filter that keeps every row is the identity. */
  lemma {:induction false} FilterAll<T>(xs: seq<T>, p: T -> bool)
    requires forall i :: 0 <= i < |xs| ==> p(xs[i])
    ensures Filter(xs, p) == xs
  {
    if xs != [] {
      FilterAll(xs[1..], p);
    }
  }

  /** A filter that rejects every row keeps nothing. */
  lemma {:induction false} FilterNone<T>(xs: seq<T>, p: T -> bool)
    requires forall i :: 0 <= i < |xs| ==> !p(xs[i])
    ensures Filter(xs, p) == []
  {
    if xs != [] {
      FilterNone(xs[1..], p);
    }
  }

  /** Two predicates that agree on every row of `xs` select the same rows. */
  lemma {:induction false} FilterCongruent<T>(xs: seq<T>, p: T -> bool, q: T -> bool)
    requires forall i :: 0 <= i < |xs| ==> p(xs[i]) == q(xs[i])
    ensures Filter(xs, p) == Filter(xs, q)
  {
    if xs != [] {
      FilterCongruent(xs[1..], p, q);
    }
  }

  /** A filter that rejects exactly one row drops exactly that row. */
  lemma FilterDropsOne<T>(xs: seq<T>, p: T -> bool, k: nat)
    requires k < |xs| && !p(xs[k])
    requires forall i :: 0 <= i < |xs| && i != k ==> p(xs[i])
    ensures Filter(xs, p) == xs[..k] + xs[k + 1..]
  {
    var before, after := xs[..k], xs[k + 1..];
    SplitAt(xs, k);
    forall i | 0 <= i < |before| ensures p(before[i]) {
      assert before[i] == xs[i];
    }
    forall i | 0 <= i < |after| ensures p(after[i]) {
      assert after[i] == xs[k + 1 + i];
    }
    FilterSkipsOne(before, xs[k], after, p);
  }

  lemma SplitAt<T>(xs: seq<T>, k: nat)
    requires k < |xs|
    ensures xs == xs[..k] + [xs[k]] + xs[k + 1..]
  {
  }

  /** Rejecting one row between accepted rows drops exactly that row. */
  lemma {:induction false} FilterSkipsOne<T>(before: seq<T>, x: T, after: seq<T>, p: T -> bool)
    requires !p(x)
    requires forall i :: 0 <= i < |before| ==> p(before[i])
    requires forall i :: 0 <= i < |after| ==> p(after[i])
    ensures Filter(before + [x] + after, p) == before + after
  {
    var xs := before + [x] + after;
    if before == [] {
      assert xs == [x] + after;
      assert xs[1..] == after;
      FilterAll(after, p);
    } else {
      assert xs[0] == before[0];
      assert xs[1..] == before[1..] + [x] + after;
      var rest := before[1..];
      assert p(xs[0]);
      assert Filter(xs, p) == [xs[0]] + Filter(rest + [x] + after, p);
      forall i | 0 <= i < |rest| ensures p(rest[i]) {
        assert rest[i] == before[i + 1];
      }
      FilterSkipsOne(rest, x, after, p);
      ConsAppend(before, after);
    }
  }

  lemma ConsAppend<T>(s: seq<T>, t: seq<T>)
    requires s != []
    ensures s + t == [s[0]] + (s[1..] + t)
  {
    assert s == [s[0]] + s[1..];
  }

  /** Index of the first row satisfying `p` (|xs| when there is none). */
  function FirstIndex<T>(xs: seq<T>, p: T -> bool): (k: nat)
    ensures k <= |xs|
    ensures k < |xs| ==> p(xs[k])
    ensures forall i :: 0 <= i < k ==> !p(xs[i])
  {
    if xs == [] then 0
    else if p(xs[0]) then 0
    else 1 + FirstIndex(xs[1..], p)
  }

  /** The store's `findFirst`: the first row in table order satisfying `p`. */
  function First<T>(xs: seq<T>, p: T -> bool): (r: Option<T>)
    ensures r.None? <==> forall i :: 0 <= i < |xs| ==> !p(xs[i])
    ensures r.Some? ==> r.value in xs && p(r.value)
  {
    var k := FirstIndex(xs, p);
    if k < |xs| then Some(xs[k]) else None
  }

  /** A row appended at the end that `p` rejects does not change `findFirst`. */
  lemma FirstSnoc<T>(xs: seq<T>, x: T, p: T -> bool)
    requires !p(x)
    ensures First(xs + [x], p) == First(xs, p)
  {
    var k, k' := FirstIndex(xs, p), FirstIndex(xs + [x], p);
    assert forall i :: 0 <= i < |xs| ==> (xs + [x])[i] == xs[i];
    if k < |xs| {
      assert k' <= k;
    } else {
      assert k' == |xs| + 1 || k' == |xs|;
    }
  }

  /** `filter(p)[0]` in the source is exactly `findFirst(p)`. */
  lemma {:induction false} FilterHeadIsFirst<T>(xs: seq<T>, p: T -> bool)
    ensures Filter(xs, p) == [] <==> First(xs, p).None?
    ensures Filter(xs, p) != [] ==> Filter(xs, p)[0] == First(xs, p).value
  {
    if xs != [] {
      FilterHeadIsFirst(xs[1..], p);
      if !p(xs[0]) {
        assert FirstIndex(xs, p) == 1 + FirstIndex(xs[1..], p);
      }
    }
  }

  /** `Promise.all` over one asynchronous step per element, modelled in
      element order: every result, or the error of the first step that fails. */
  function AllOf<A, B, E(==)>(xs: seq<A>, f: A -> Result<B, E>): (r: Result<seq<B>, E>)
    ensures r.Ok? <==> forall i :: 0 <= i < |xs| ==> f(xs[i]).Ok?
    ensures r.Ok? ==> |r.value| == |xs| && forall i :: 0 <= i < |xs| ==> r.value[i] == f(xs[i]).value
    ensures r.Err? ==>
      exists i :: 0 <= i < |xs| && f(xs[i]).Err? && f(xs[i]).error == r.error && forall j :: 0 <= j < i ==> f(xs[j]).Ok?
  {
    if xs == [] then Ok([])
    else
      var head := f(xs[0]);
      if head.Err? then Err(head.error)
      else
        var rest := AllOf(xs[1..], f);
        assert forall i :: 1 <= i < |xs| ==> xs[i] == xs[1..][i - 1];
        if rest.Err? then
          var k :| 0 <= k < |xs[1..]| && f(xs[1..][k]).Err? && f(xs[1..][k]).error == rest.error && forall j :: 0 <= j < k ==> f(xs[1..][j]).Ok?;
          assert f(xs[k + 1]).Err? && f(xs[k + 1]).error == rest.error;
          Err(rest.error)
        else
          Ok([head.value] + rest.value)
  }

  /** No two rows (at different positions) share a key: a primary-key constraint. */
  predicate DistinctBy<T>(xs: seq<T>, key: T -> string)
  {
    forall i, j :: 0 <= i < j < |xs| ==> key(xs[i]) != key(xs[j])
  }

  lemma {:induction false} FilterKeepsDistinct<T>(xs: seq<T>, p: T -> bool, key: T -> string)
    requires DistinctBy(xs, key)
    ensures DistinctBy(Filter(xs, p), key)
  {
    if xs != [] {
      var tail := xs[1..];
      DistinctTail(xs, key);
      FilterKeepsDistinct(tail, p, key);
      var rest := Filter(tail, p);
      if p(xs[0]) {
        forall i | 0 <= i < |rest| ensures key(rest[i]) != key(xs[0]) {
          assert rest[i] in tail;
          var k :| 0 <= k < |tail| && tail[k] == rest[i];
          assert xs[k + 1] == rest[i];
        }
        DistinctCons(xs[0], rest, key);
        assert Filter(xs, p) == [xs[0]] + rest;
      } else {
        assert Filter(xs, p) == rest;
      }
    }
  }

  lemma DistinctTail<T>(xs: seq<T>, key: T -> string)
    requires xs != [] && DistinctBy(xs, key)
    ensures DistinctBy(xs[1..], key)
  {
    var tail := xs[1..];
    forall i, j | 0 <= i < j < |tail| ensures key(tail[i]) != key(tail[j]) {
      assert tail[i] == xs[i + 1] && tail[j] == xs[j + 1];
    }
  }

  lemma DistinctCons<T>(h: T, rest: seq<T>, key: T -> string)
    requires DistinctBy(rest, key)
    requires forall i :: 0 <= i < |rest| ==> key(rest[i]) != key(h)
    ensures DistinctBy([h] + rest, key)
  {
    var r := [h] + rest;
    forall i, j | 0 <= i < j < |r| ensures key(r[i]) != key(r[j]) {
      assert r[j] == rest[j - 1];
      if i > 0 {
        assert r[i] == rest[i - 1];
      }
    }
  }

  lemma DistinctSnoc<T>(xs: seq<T>, x: T, key: T -> string)
    requires DistinctBy(xs, key)
    requires forall i :: 0 <= i < |xs| ==> key(xs[i]) != key(x)
    ensures DistinctBy(xs + [x], key)
  {
    var r := xs + [x];
    forall i, j | 0 <= i < j < |r| ensures key(r[i]) != key(r[j]) {
      assert r[i] == xs[i];
      if j < |xs| {
        assert r[j] == xs[j];
      }
    }
  }

  /** `xs` is ordered by `key`, largest first. */
  predicate SortedDesc<T>(xs: seq<T>, key: T -> int)
  {
    forall i, j :: 0 <= i < j < |xs| ==> key(xs[i]) >= key(xs[j])
  }

  /** Prepending a row whose key bounds every key of a sorted sequence keeps it sorted. */
  lemma ConsSortedDesc<T>(h: T, rest: seq<T>, key: T -> int)
    requires SortedDesc(rest, key)
    requires forall i :: 0 <= i < |rest| ==> key(h) >= key(rest[i])
    ensures SortedDesc([h] + rest, key)
  {
    var r := [h] + rest;
    forall i, j | 0 <= i < j < |r| ensures key(r[i]) >= key(r[j]) {
      assert r[j] == rest[j - 1];
      if i > 0 {
        assert r[i] == rest[i - 1];
      }
    }
  }

  function InsertDesc<T>(x: T, xs: seq<T>, key: T -> int): (r: seq<T>)
    requires SortedDesc(xs, key)
    ensures SortedDesc(r, key)
    ensures multiset(r) == multiset(xs) + multiset{x}
  {
    if xs == [] then [x]
    else if key(x) >= key(xs[0]) then
      ConsSortedDesc(x, xs, key);
      [x] + xs
    else
      assert xs == [xs[0]] + xs[1..];
      var rest := InsertDesc(x, xs[1..], key);
      InsertBounded(xs[0], x, xs[1..], rest, key);
      ConsSortedDesc(xs[0], rest, key);
      [xs[0]] + rest
  }

  lemma InsertBounded<T>(h: T, x: T, tail: seq<T>, rest: seq<T>, key: T -> int)
    requires key(h) > key(x)
    requires forall i :: 0 <= i < |tail| ==> key(h) >= key(tail[i])
    requires multiset(rest) == multiset(tail) + multiset{x}
    ensures forall i :: 0 <= i < |rest| ==> key(h) >= key(rest[i])
  {
    forall i | 0 <= i < |rest| ensures key(h) >= key(rest[i]) {
      var y := rest[i];
      assert y in multiset(rest);
      if y != x {
        assert y in multiset(tail);
        var k :| 0 <= k < |tail| && tail[k] == y;
      }
    }
  }

  /** The store's `orderBy: { createdAt: "desc" }`: a permutation of `xs`
      ordered by `key`, largest first (an insertion sort, stable on ties). */
  function SortDesc<T>(xs: seq<T>, key: T -> int): (r: seq<T>)
    ensures SortedDesc(r, key)
    ensures multiset(r) == multiset(xs)
  {
    if xs == [] then []
    else
      assert xs == [xs[0]] + xs[1..];
      InsertDesc(xs[0], SortDesc(xs[1..], key), key)
  }

  /** A sorted scan has the same length and the same rows as the unsorted one. */
  lemma SortDescSameRows<T>(xs: seq<T>, key: T -> int)
    ensures |SortDesc(xs, key)| == |xs|
    ensures forall i :: 0 <= i < |xs| ==> xs[i] in SortDesc(xs, key)
    ensures forall i :: 0 <= i < |SortDesc(xs, key)| ==> SortDesc(xs, key)[i] in xs
  {
    var r := SortDesc(xs, key);
    assert |multiset(r)| == |multiset(xs)|;
    forall i | 0 <= i < |xs| ensures xs[i] in r {
      assert xs[i] in multiset(xs);
    }
    forall i | 0 <= i < |r| ensures r[i] in xs {
      assert r[i] in multiset(r);
    }
  }
}

=== FILE: store.dfy ===
/** The persisted tables the application reads and writes, as immutable values.
    Each table is a sequence in insertion order, because `findFirst` and the
    source's `filter(...)[0]` pick the first matching row in that order. */
module Store {
  import opened Wrappers
  import opened Seqs

  /** Row identifiers and external user ids. The empty string is the value
      JavaScript treats as falsy in the source's `if (!id)` guards. */
  type Id = string

  datatype User = User(id: Id, email: string, imageUrl: string, username: string)

  /** `name` is set for groups; `lastMessageId` is the denormalised pointer to
      the conversation's most recent message. */
  datatype Conversation = Conversation(id: Id, isGroup: bool, name: Option<string>, lastMessageId: Option<Id>)

  /** A ConversationMember row; `lastSeenMessageId` is the member's read pointer. */
  datatype Membership = Membership(id: Id, memberId: Id, conversationId: Id, lastSeenMessageId: Option<Id>)

  /** `kind` is the row's `type` column; `createdAt` is a timestamp in
      milliseconds since the epoch, hence a natural number. */
  datatype Message = Message(id: Id, conversationId: Id, senderId: Id, kind: string, content: seq<string>, createdAt: nat)

  /** A friend request from `senderId` to `receiverId`. */
  datatype Request = Request(id: Id, senderId: Id, receiverId: Id, createdAt: nat)

  /** A friendship row: `userId` accepted a request from `friendId`. */
  datatype Friend = Friend(id: Id, userId: Id, friendId: Id)

  datatype Db = Db(
    users: seq<User>,
    conversations: seq<Conversation>,
    memberships: seq<Membership>,
    messages: seq<Message>,
    requests: seq<Request>,
    friends: seq<Friend>)

  /** The outcome of an operation that may write to the store, with the store
      afterwards. Used where a failure can happen after a write (the writes of
      the source are not transactional) or where failures are swallowed. */
  datatype Step<+T> = Step(out: T, db: Db)

  /** The reasons an operation rejects; each names the source's error message. */
  datatype Error =
    | NotLoggedIn                 // "You need to be logged in ..."
    | InvalidData                 // "Invalid data!"
    | ConversationNotFound        // "Conversation not found"
    | NotAMember                  // "You aren't a member of this conversation!"
    | MembersNotFound             // "Conversation members could not be found!"
    | MemberDetailsNotFound       // "... member could not be found"
    | UndefinedMember             // `filter(...)[0]` was undefined and `.memberId` threw
    | MessageNotFound             // "Last message sent not found!"
    | SenderNotFound              // "Could not find sender of message!" / "User not found"
    | SelfRequest                 // "You can't send a friend request to yourself!"
    | ReceiverNotFound            // "Receiving user not found"
    | RequestAlreadySent          // "Request already sent"
    | RequestAlreadyReceived      // "This user has already sent you a request"
    | RecordNotFound              // the store's update of a missing row

  /** A JavaScript string is truthy iff it is non-empty. */
  predicate Truthy(s: string)
  {
    s != ""
  }

  /** An optional string field that is present and truthy. */
  predicate Present(o: Option<string>)
  {
    o.Some? && o.value != ""
  }

  function UserKey(u: User): Id { u.id }
  function UserEmail(u: User): string { u.email }
  function ConversationKey(c: Conversation): Id { c.id }
  function MembershipKey(m: Membership): Id { m.id }
  function MessageKey(m: Message): Id { m.id }
  function MessageTime(m: Message): int { m.createdAt }
  function RequestTime(r: Request): int { r.createdAt }

  /** The primary-key constraints of the tables the model writes, plus the
      unique `email` column of users. */
  predicate WellFormed(db: Db)
  {
    && DistinctBy(db.users, UserKey)
    && DistinctBy(db.users, UserEmail)
    && DistinctBy(db.conversations, ConversationKey)
    && DistinctBy(db.memberships, MembershipKey)
    && DistinctBy(db.messages, MessageKey)
  }

  /** `findUnique({ where: { id } })` on users. */
  function FindUser(db: Db, id: Id): (r: Option<User>)
    ensures r.Some? ==> r.value in db.users && r.value.id == id
    ensures r.None? <==> forall i :: 0 <= i < |db.users| ==> db.users[i].id != id
  {
    First(db.users, (u: User) => u.id == id)
  }

  /** `findUnique({ where: { id } })` on conversations. */
  function FindConversation(db: Db, id: Id): (r: Option<Conversation>)
    ensures r.Some? ==> r.value in db.conversations && r.value.id == id
    ensures r.None? <==> forall i :: 0 <= i < |db.conversations| ==> db.conversations[i].id != id
  {
    First(db.conversations, (c: Conversation) => c.id == id)
  }

  /** `findUnique({ where: { id } })` on messages. */
  function FindMessage(db: Db, id: Id): (r: Option<Message>)
    ensures r.Some? ==> r.value in db.messages && r.value.id == id
    ensures r.None? <==> forall i :: 0 <= i < |db.messages| ==> db.messages[i].id != id
  {
    First(db.messages, (m: Message) => m.id == id)
  }

  /** `findMany({ where: { conversationId } })` on messages. */
  function MessagesOf(db: Db, conversationId: Id): seq<Message>
  {
    Filter(db.messages, (m: Message) => m.conversationId == conversationId)
  }

  /** `findMany({ where: { conversationId } })` on memberships. */
  function MembershipsOf(db: Db, conversationId: Id): seq<Membership>
  {
    Filter(db.memberships, (m: Membership) => m.conversationId == conversationId)
  }
}

=== FILE: users.dfy ===
/** The user-table helpers of client/src/data/users.ts. Every helper catches
    its own errors and resolves with `undefined`, modelled as `None`. */
module Users {
  import opened Wrappers
  import opened Seqs
  import opened Store

  /** `getLoggedInUser`: the user row of the authenticated id. The identity
      provider's `auth()` is an input: `authUserId` is its `userId`. */
  function GetLoggedInUser(db: Db, authUserId: Option<Id>): (r: Option<User>)
    ensures r.Some? ==> r.value in db.users && authUserId == Some(r.value.id)
    ensures r.None? <==>
      authUserId.None? || authUserId.value == ""
      || forall i :: 0 <= i < |db.users| ==> db.users[i].id != authUserId.value
  {
    if authUserId.None? || !Truthy(authUserId.value) then None
    else FindUser(db, authUserId.value)
  }

  /** `getUserById`: nothing for an empty or unknown id. */
  function GetUserById(db: Db, id: Id): (r: Option<User>)
    ensures r.Some? ==> r.value in db.users && r.value.id == id && id != ""
    ensures r.None? <==> id == "" || forall i :: 0 <= i < |db.users| ==> db.users[i].id != id
  {
    if !Truthy(id) then None else FindUser(db, id)
  }

  /** `getUserByEmail`: nothing for an empty email, otherwise the first user in
      table order with that email, if any. */
  function GetUserByEmail(db: Db, email: string): (r: Option<User>)
    ensures r.Some? ==>
      exists k :: 0 <= k < |db.users| && db.users[k] == r.value && r.value.email == email
        && forall i :: 0 <= i < k ==> db.users[i].email != email
    ensures r.None? <==> email == "" || forall i :: 0 <= i < |db.users| ==> db.users[i].email != email
  {
    if !Truthy(email) then None
    else
      var k := FirstIndex(db.users, (u: User) => u.email == email);
      if k < |db.users| then Some(db.users[k]) else None
  }

  /** A user id or email that a new row would duplicate. */
  predicate Clashes(db: Db, u: User)
  {
    exists i :: 0 <= i < |db.users| && (db.users[i].id == u.id || db.users[i].email == u.email)
  }

  /** `createUser`: inserts the row unless it violates a unique column; the
      failure is swallowed and leaves the table as it was. */
  function CreateUser(db: Db, u: User): (r: Step<Option<User>>)
    ensures r.out.Some? <==> !Clashes(db, u)
    ensures r.out.Some? ==> r.out.value == u && r.db == db.(users := db.users + [u])
    ensures r.out.None? ==> r.db == db
    ensures WellFormed(db) ==> WellFormed(r.db)
  {
    if Clashes(db, u) then Step(None, db)
    else
      var r := db.(users := db.users + [u]);
      assert WellFormed(db) ==> WellFormed(r) by {
        if WellFormed(db) {
          DistinctSnoc(db.users, u, UserKey);
          DistinctSnoc(db.users, u, UserEmail);
        }
      }
      Step(Some(u), r)
  }

  /** The fields of a `Partial<User>` update that the application sends. */
  datatype UserPatch = UserPatch(email: Option<string>, imageUrl: Option<string>, username: Option<string>)

  function Patched(u: User, p: UserPatch): User
  {
    User(
      u.id,
      if p.email.Some? then p.email.value else u.email,
      if p.imageUrl.Some? then p.imageUrl.value else u.imageUrl,
      if p.username.Some? then p.username.value else u.username)
  }

  /** Some row with a different id already has `email`. */
  predicate EmailTaken(db: Db, id: Id, email: string)
  {
    exists i :: 0 <= i < |db.users| && db.users[i].id != id && db.users[i].email == email
  }

  /** `updateUser`: nothing happens for an empty id, an unknown id, or an email
      that another user already has (each failure is swallowed). Otherwise the
      row of that id takes the supplied fields and keeps the others. */
  function UpdateUser(db: Db, id: Id, p: UserPatch): (r: Step<Option<User>>)
    ensures id == "" ==> r == Step(None, db)
    ensures r.out.None? ==> r.db == db
    ensures r.out.Some? ==>
      && r.db == db.(users := r.db.users)
      && |r.db.users| == |db.users|
      && (exists k :: 0 <= k < |db.users| && db.users[k].id == id
           && r.db.users[k] == Patched(db.users[k], p) && r.out.value == r.db.users[k]
           && forall i :: 0 <= i < |db.users| && i != k ==> r.db.users[i] == db.users[i])
    ensures r.out.Some? ==>
      && r.out.value.id == id
      && (p.email.Some? ==> r.out.value.email == p.email.value)
      && (p.imageUrl.Some? ==> r.out.value.imageUrl == p.imageUrl.value)
      && (p.username.Some? ==> r.out.value.username == p.username.value)
    ensures r.out.None? && id != "" && WellFormed(db) ==>
      (forall i :: 0 <= i < |db.users| ==> db.users[i].id != id)
      || exists i :: 0 <= i < |db.users| && db.users[i].id != id && p.email == Some(db.users[i].email)
    // with unique keys: the update happens iff the id is known and the new email is free
    ensures id != "" && WellFormed(db) ==>
      (r.out.Some? <==>
        (exists k :: 0 <= k < |db.users| && db.users[k].id == id) && !(p.email.Some? && EmailTaken(db, id, p.email.value)))
    ensures WellFormed(db) ==> WellFormed(r.db)
  {
    if !Truthy(id) then Step(None, db)
    else
      var k := FirstIndex(db.users, (u: User) => u.id == id);
      if k == |db.users| then Step(None, db)
      else
        var v := Patched(db.users[k], p);
        if exists i :: 0 <= i < |db.users| && i != k && db.users[i].email == v.email then Step(None, db)
        else
          assert WellFormed(db) ==> WellFormed(db.(users := db.users[k := v])) by {
            if WellFormed(db) {
              ReplaceUserKeepsWellFormed(db, k, v);
            }
          }
          Step(Some(v), db.(users := db.users[k := v]))
  }

  /** Overwriting one user row with a row of the same id and an email no other
      row has keeps both unique keys of the user table. */
  lemma ReplaceUserKeepsWellFormed(db: Db, k: nat, v: User)
    requires WellFormed(db)
    requires k < |db.users| && v.id == db.users[k].id
    requires forall i :: 0 <= i < |db.users| && i != k ==> db.users[i].email != v.email
    ensures WellFormed(db.(users := db.users[k := v]))
  {
    var users := db.users[k := v];
    forall i, j | 0 <= i < j < |users| ensures users[i].id != users[j].id {
      assert users[i].id == db.users[i].id && users[j].id == db.users[j].id;
    }
    forall i, j | 0 <= i < j < |users| ensures users[i].email != users[j].email {
      if i != k && j != k {
        assert users[i] == db.users[i] && users[j] == db.users[j];
      }
    }
  }

  /** Selects the users whose id is not `id`. */
  function OtherUser(id: Id): User -> bool
  {
    (u: User) => u.id != id
  }

  /** `deleteUser`: removes the row with that id; an empty or unknown id is a
      swallowed failure that leaves the table as it was. */
  function DeleteUser(db: Db, id: Id): (r: Db)
    ensures r == db.(users := r.users)
    ensures id == "" ==> r == db
    ensures id != "" ==>
      (forall i :: 0 <= i < |r.users| ==> r.users[i] in db.users && r.users[i].id != id)
      && (forall i :: 0 <= i < |db.users| && db.users[i].id != id ==> db.users[i] in r.users)
    ensures WellFormed(db) ==> WellFormed(r)
  {
    if !Truthy(id) then db
    else
      var r := db.(users := Filter(db.users, OtherUser(id)));
      assert WellFormed(db) ==> WellFormed(r) by {
        if WellFormed(db) {
          FilterKeepsDistinct(db.users, OtherUser(id), UserKey);
          FilterKeepsDistinct(db.users, OtherUser(id), UserEmail);
        }
      }
      r
  }

  /** Deleting a present id removes exactly one row. */
  lemma DeleteUserRemovesOne(db: Db, id: Id)
    requires WellFormed(db)
    requires id != ""
    requires exists i :: 0 <= i < |db.users| && db.users[i].id == id
    ensures |DeleteUser(db, id).users| == |db.users| - 1
  {
    var k :| 0 <= k < |db.users| && db.users[k].id == id;
    forall i | 0 <= i < |db.users| && i != k ensures OtherUser(id)(db.users[i]) {
      if i < k {
        assert UserKey(db.users[i]) != UserKey(db.users[k]);
      } else {
        assert UserKey(db.users[k]) != UserKey(db.users[i]);
      }
    }
    FilterDropsOne(db.users, OtherUser(id), k);
  }
}

=== FILE: webhook.dfy ===
/** The identity-provider webhook (client/src/app/api/webhooks/clerk/route.ts):
    a POST handler that keeps the user table in step with `user.created`,
    `user.updated` and `user.deleted` events. The Svix signature check is an
    input: `verified` is the event it yields, or `None` when it throws. */
module ClerkWebhook {
  import opened Wrappers
  import opened Store
  import opened Users

  datatype Headers = Headers(svixId: Option<string>, svixTimestamp: Option<string>, svixSignature: Option<string>)

  /** The fields of `evt.data` the handler reads; a field is `None` when the
      payload leaves it out or sets it to null. */
  datatype EventData = EventData(
    id: Option<string>,
    emailAddresses: Option<seq<string>>,
    imageUrl: Option<string>,
    username: Option<string>)

  datatype Event = Event(kind: string, data: EventData)

  /** `Raised` is an exception escaping the handler (the framework answers it). */
  datatype Response = Status(code: nat) | Raised

  const BadRequest := Status(400)
  const Accepted := Status(200)

  /** The `if (!svix_id || !svix_timestamp || !svix_signature)` guard. */
  predicate HeadersPresent(h: Headers)
  {
    Present(h.svixId) && Present(h.svixTimestamp) && Present(h.svixSignature)
  }

  /** The `if (!id || !email_addresses || !image_url || !username)` guard. An
      empty address list is an array, hence truthy, and passes it. */
  predicate ProfileComplete(d: EventData)
  {
    Present(d.id) && d.emailAddresses.Some? && Present(d.imageUrl) && Present(d.username)
  }

  /** `db.user.findFirst({ where: { id } })`. */
  predicate Known(db: Db, id: Id)
  {
    exists i :: 0 <= i < |db.users| && db.users[i].id == id
  }

  /** The row a `user.created` event describes: its first email address. */
  function NewUser(d: EventData): User
    requires ProfileComplete(d) && d.emailAddresses.value != []
  {
    User(d.id.value, d.emailAddresses.value[0], d.imageUrl.value, d.username.value)
  }

  /** `user.created`: an incomplete profile or a known id is refused with 400
      and no change; otherwise the new row carries the event's id, first email
      address, image and username (unless the email is taken, which the insert
      swallows). */
  function OnCreated(db: Db, d: EventData): (r: Step<Response>)
    ensures !ProfileComplete(d) ==> r == Step(BadRequest, db)
    ensures ProfileComplete(d) && Known(db, d.id.value) ==> r == Step(BadRequest, db)
    ensures ProfileComplete(d) && !Known(db, d.id.value) && d.emailAddresses.value != [] ==>
      && r.out == Accepted
      && (!Clashes(db, NewUser(d)) ==> r.db == db.(users := db.users + [NewUser(d)]))
      && (Clashes(db, NewUser(d)) ==> r.db == db)
    // an empty address list passes the guard, then reading its first entry throws
    ensures ProfileComplete(d) && !Known(db, d.id.value) && d.emailAddresses.value == [] ==> r == Step(Raised, db)
  {
    if !ProfileComplete(d) then Step(BadRequest, db)
    else if Known(db, d.id.value) then Step(BadRequest, db)
    else if d.emailAddresses.value == [] then Step(Raised, db)   // `email_addresses[0].email_address` throws
    else Step(Accepted, CreateUser(db, NewUser(d)).db)         // a failed insert is swallowed
  }

  /** `user.updated`: an incomplete profile or an unknown id is refused with
      400; a known id keeps its id and takes the event's first email address,
      image and username, unless another user has that email (the update's
      failure is swallowed). */
  function OnUpdated(db: Db, d: EventData): (r: Step<Response>)
    ensures !ProfileComplete(d) ==> r == Step(BadRequest, db)
    ensures ProfileComplete(d) && !Known(db, d.id.value) ==> r == Step(BadRequest, db)
    ensures ProfileComplete(d) && Known(db, d.id.value) && d.emailAddresses.value != [] ==>
      && r.out == Accepted
      && |r.db.users| == |db.users|
    // another user already has the first email address: the update is swallowed
    ensures && ProfileComplete(d) && Known(db, d.id.value) && d.emailAddresses.value != []
            && EmailTaken(db, d.id.value, d.emailAddresses.value[0])
            ==> r == Step(Accepted, db)
    // with unique keys and a free email, the user's row is replaced in place
    ensures && ProfileComplete(d) && Known(db, d.id.value) && d.emailAddresses.value != []
            && WellFormed(db) && !EmailTaken(db, d.id.value, d.emailAddresses.value[0])
            ==> && r.db == db.(users := r.db.users)
                && exists k ::
                     && 0 <= k < |db.users| && db.users[k].id == d.id.value
                     && r.db.users[k] == User(d.id.value, d.emailAddresses.value[0], d.imageUrl.value, d.username.value)
                     && forall i :: 0 <= i < |db.users| && i != k ==> r.db.users[i] == db.users[i]
    // an empty address list passes the guard, then reading its first entry throws
    ensures ProfileComplete(d) && Known(db, d.id.value) && d.emailAddresses.value == [] ==> r == Step(Raised, db)
  {
    if !ProfileComplete(d) then Step(BadRequest, db)
    else if !Known(db, d.id.value) then Step(BadRequest, db)
    else if d.emailAddresses.value == [] then Step(Raised, db)
    else
      var patch := UserPatch(Some(d.emailAddresses.value[0]), Some(d.imageUrl.value), Some(d.username.value));
      Step(Accepted, UpdateUser(db, d.id.value, patch).db)
  }

  /** `user.deleted`: a missing or unknown id is refused with 400; a known id
      is removed and every other user stays. */
  function OnDeleted(db: Db, d: EventData): (r: Step<Response>)
    ensures !Present(d.id) ==> r == Step(BadRequest, db)
    ensures Present(d.id) && !Known(db, d.id.value) ==> r == Step(BadRequest, db)
    ensures Present(d.id) && Known(db, d.id.value) ==>
      && r.out == Accepted
      && (forall i :: 0 <= i < |r.db.users| ==> r.db.users[i].id != d.id.value)
      && (forall i :: 0 <= i < |db.users| && db.users[i].id != d.id.value ==> db.users[i] in r.db.users)
      // nothing is added and no other table changes
      && (forall i :: 0 <= i < |r.db.users| ==> r.db.users[i] in db.users)
      && r.db == db.(users := r.db.users)
  {
    if !Present(d.id) then Step(BadRequest, db)
    else if !Known(db, d.id.value) then Step(BadRequest, db)
    else Step(Accepted, DeleteUser(db, d.id.value))
  }

  /** `POST`: the response and the user table afterwards. */
  function Post(db: Db, secretConfigured: bool, headers: Headers, verified: Option<Event>): (r: Step<Response>)
    // only the user table is ever written, and only by an accepted event
    ensures r.db == db.(users := r.db.users)
    ensures r.out != Accepted ==> r.db == db
    ensures r.out == Raised || r.out == BadRequest || r.out == Accepted
    ensures !secretConfigured ==> r == Step(Raised, db)
    ensures secretConfigured && !HeadersPresent(headers) ==> r == Step(BadRequest, db)
    ensures secretConfigured && HeadersPresent(headers) && verified.None? ==> r == Step(BadRequest, db)
    // any other event type is acknowledged and changes nothing
    ensures secretConfigured && HeadersPresent(headers) && verified.Some?
      && verified.value.kind !in {"user.created", "user.updated", "user.deleted"}
      ==> r == Step(Accepted, db)
    // a verified user event is handed to its handler
    ensures secretConfigured && HeadersPresent(headers) && verified.Some? && verified.value.kind == "user.created"
      ==> r == OnCreated(db, verified.value.data)
    ensures secretConfigured && HeadersPresent(headers) && verified.Some? && verified.value.kind == "user.updated"
      ==> r == OnUpdated(db, verified.value.data)
    ensures secretConfigured && HeadersPresent(headers) && verified.Some? && verified.value.kind == "user.deleted"
      ==> r == OnDeleted(db, verified.value.data)
    ensures WellFormed(db) ==> WellFormed(r.db)
  {
    if !secretConfigured then Step(Raised, db)
    else if !HeadersPresent(headers) then Step(BadRequest, db)
    else if verified.None? then Step(BadRequest, db)
    else
      var evt := verified.value;
      if evt.kind == "user.created" then OnCreated(db, evt.data)
      else if evt.kind == "user.updated" then OnUpdated(db, evt.data)
      else if evt.kind == "user.deleted" then OnDeleted(db, evt.data)
      else Step(Accepted, db)
  }
}

=== FILE: wrappers.dfy ===
/** Failure-compatible result types shared by every module of the model.
    `Option` stands for the source's `undefined`/`null` returns (errors that a
    `try`/`catch` swallowed); `Result` for a call that either resolves with a
    value or rejects with an error. */
module Wrappers {

  datatype Option<+T> = None | Some(value: T)

  datatype Result<+T, +E> = Ok(value: T) | Err(error: E)
}
